=== FILE: README.md ===
# DCChatting core, modelled in Dafny

DCChatting is a LAN chat application. Peers find each other by UDP
broadcast and talk over TCP. They exchange text and files, and each peer
keeps a per-device record of the conversation on disk. This project
models the deterministic logic inside `DCChatting.py` as pure functions
over immutable values. Clock readings, directory listings, file sizes and
what each socket `recv` returns are all explicit parameters.

The model has these modules, one file each:

- `Common` (`common.dfy`): the program's constants (`BUFFER_SIZE`,
  `OFFLINE_TIMEOUT`, `MAX_RECORD_FILE_SIZE`), bytes and `Option`.
- `Strings` (`strings.dfy`): decimal digits and numbers, ASCII
  lower-casing, substring search, lexicographic order, and `split(' (')[0]`.
- `Registry` (`registry.dfy`): the table `self.devices` from MAC to
  `NetworkDevice`. It covers the discovery upsert, the handshake
  lookup-or-create with its avatar exchange, avatar and name updates,
  unread counts, and the stale-device sweep.
- `DeviceList` (`device_list.dfy`): the sorted, filtered list shown to the
  user, each entry with its `" (n)"` unread suffix, and the way a picked
  entry is mapped back to a device.
- `RecordStore` (`record_store.dfy`): choosing and rotating the
  `Records<N>.dc` file to append to, and choosing a free name for a
  stored file.
- `Purge` (`purge.dfy`): `delete_records`, which filters every record file
  against a time threshold and deletes the stored files of removed file
  records.
- `Transfer` (`transfer.dfy`): the sender's readiness wait and chunking,
  the receiver's assembly loop and size check, and the round trip between
  them.

The registry is a `map<Mac, Device>`. Two predicates are kept by every
operation:

- `Valid`: each entry is filed under its own MAC, so there is at most one
  device per MAC.
- `AllOnline`: every device in the table is flagged online.

## Model

| member | source | states |
|---|---|---|
| Registry.NewDevice | DCChatting.py:28-35 | A new device has the given ip, MAC and name, the default avatar for its name, the given time as timestamp, is online, and has no unread messages. |
| Registry.SafeMac | DCChatting.py:107-109 | The directory name keeps every character of the MAC except `:`, which becomes `_`; the result has no `:`. |
| Registry.SafeMacInjective | DCChatting.py:107-109 | Two MACs without `_` that map to the same directory name are equal, so distinct devices get distinct directories. |
| Registry.OnAnnounce | DCChatting.py:577-596 | A self-announcement or an unparsable datagram leaves the table unchanged. For a known MAC the timestamp becomes the receiver's clock, then the name is replaced if the datagram has one, and then the ip if it has both. A missing key raises and stops the writes where it stands. Avatar, unread count and online flag are kept. An unknown MAC is inserted, as a new device with unread 0, exactly when the datagram has both name and ip. No other entry changes, and one-entry-per-MAC and all-online are preserved. |
| Registry.IncompleteAnnounceKeepsPeerAlive | DCChatting.py:582-586 | A datagram from a known peer that has neither `name` nor `ip` still refreshes that peer's timestamp before it raises, so the peer counts as live. Nothing else changes. |
| Registry.AnnounceTwiceKeepsOneEntry | DCChatting.py:583-596 | Two complete announces from the same peer leave exactly one entry for it, with the second announce's ip and name and time, and the avatar and unread count from before. |
| Registry.LookupOrCreate | DCChatting.py:622-630 | A known MAC keeps its table entry exactly as it was. An unknown MAC is added as a new device with the connection's address and the announced name. An unknown MAC whose hello has no name raises, and nothing is added. Every other entry is unchanged. |
| Registry.AcceptHandshake | DCChatting.py:618-646 | The handshake proceeds exactly when the first message is a hello from a known MAC or one with a name. The peer is then looked up or created. An `avatar` reply replaces exactly the peer's avatar, with `Missing` when decoding fails, and any other reply leaves the looked-up result as it is. Other entries are unchanged and one-entry-per-MAC is kept. |
| Registry.OnAvatarUpdate | DCChatting.py:683-685 | An `avatar_update` replaces the avatar of a known MAC only. The set of MACs and every other entry are unchanged. |
| Registry.OnNameChange | DCChatting.py:707-721 | A name change renames the device with the message's MAC, if it is known. It also renames the device held by the chat open under the old name, if that device is in the table, even when that is another peer. No other entry changes, the set of MACs stays the same, and one-entry-per-MAC and all-online are kept. |
| Registry.NameChangeCanRenameAnotherPeer | DCChatting.py:709-721 | When the chat open under the old name belongs to a different peer than the sender, both end up with the new name, and that other peer's entry changes unless it already had the name. |
| Registry.NameChangeIdempotent | DCChatting.py:707-721 | Repeating the same name change leaves the table as the first one left it. |
| Registry.OnIncoming | DCChatting.py:933-941 | An incoming message raises the sender's unread count by one unless its chat is being viewed. No other field or entry changes. |
| Registry.OnChatOpened | DCChatting.py:528-530 | Opening a chat sets that device's unread count to 0. No other field or entry changes. |
| Registry.UnreadCountsMessages | DCChatting.py:937-941 | After `n` unviewed messages the unread count has grown by exactly `n`, and opening the chat afterwards clears it to 0. |
| Registry.SweepStale | DCChatting.py:772-784 | The removed MACs are exactly those whose last sighting is at least `OFFLINE_TIMEOUT` old. The survivors are exactly those seen less than that long ago, and they are unchanged apart from the online flag `check_online` sets. |
| Registry.SweepKeepsSurvivorsUnchanged | DCChatting.py:40-42 | In a table whose devices are all online, the sweep leaves every survivor exactly as it was. |
| Registry.SweepIdempotent | DCChatting.py:772-784 | A second sweep at the same time removes nothing and changes nothing. |
| Registry.AnnouncedPeerExpires | DCChatting.py:40-42 | A peer announced at `t`, by a complete datagram or as a known MAC, survives every sweep before `t + 30` and is removed by any sweep at or after it. |
| Strings.ParseNatToString | DCChatting.py:1156 | Reading back the decimal text of a number gives the number. |
| Strings.GroupedValue | DCChatting.py:1156 | A value comes out exactly for digits grouped by single underscores between digits, as `int()` accepts them: `1_000`, but not `_1`, `1_` or `1__0`. |
| Strings.PyIntOfDigits | DCChatting.py:1145-1156 | On a string `isdigit()` accepts, `int()` gives its decimal value. |
| Strings.PyIntOfIntToString | DCChatting.py:1156-1159 | `int(str(v)) == v` for every integer, negative ones included. |
| Strings.PyIntSigned | DCChatting.py:1156 | `int()` takes a leading `+` or `-` before digits, which `isdigit()` rejects, and gives the signed value. |
| Strings.PyIntLeadingBlank | DCChatting.py:1156 | `int()` skips a leading blank, which `isdigit()` rejects. |
| Strings.PyIntUnderscore | DCChatting.py:1156 | `int("1_0")` is 10, while `isdigit()` rejects `1_0`. |
| Strings.BlankIsNotANumber | DCChatting.py:1156 | `int()` of an empty or all-blank string raises. |
| Strings.ContainsOccurs | DCChatting.py:806 | `a in b` holds exactly when `a` occurs in `b` at some position. |
| Strings.Lower | DCChatting.py:797-806 | Lower-casing keeps the length, leaves no capital, changes a capital only into its small letter and nothing else, and leaves a string without capitals as it is. |
| Strings.FirstPart | DCChatting.py:837 | The result is the prefix of the text before the first `" ("`, or the whole text when there is none. |
| Strings.LexLeTotal | DCChatting.py:802 | Any two names are comparable in string order. |
| Strings.LexLeTransitive | DCChatting.py:802 | String order is transitive. |
| DeviceList.DisplayText | DCChatting.py:810-812 | The entry starts with the device name, and equals it exactly when there are no unread messages. |
| DeviceList.DisplayTextShowsUnread | DCChatting.py:810-812 | With unread messages, the entry is the name, then `" ("`, the decimal count, and `")"`. |
| DeviceList.Matches | DCChatting.py:797-806 | A device is shown exactly when the search term is empty or the lower-cased term occurs in the lower-cased name. A name equal to the term up to case is always shown, and a shown name is at least as long as the term. |
| DeviceList.SelectedNameRoundTrip | DCChatting.py:837 | Picking a device's entry recovers its name whenever the name does not contain `" ("`. |
| DeviceList.SeparatorInNameIsMisread | DCChatting.py:837 | A device named `Bob (laptop)` is read back as `Bob`. |
| DeviceList.Insert | DCChatting.py:802 | Inserting into a name-sorted list adds exactly that MAC and keeps the list sorted. |
| DeviceList.BuildDeviceList | DCChatting.py:797-812 | The list holds each device whose lower-cased name contains the lower-cased search term exactly once, and no other device. An empty term shows all devices. The list is in ascending name order, and each entry's text is that device's display text. |
| DeviceList.SelectDevice | DCChatting.py:829-848 | A device is selected exactly when some device has the name read from the entry, and the selected device has that name. Picking a shown entry of a name without `" ("` selects a device of that name. When names are unique, it selects that very device. |
| RecordStore.NumberOfIsInt | DCChatting.py:1145 | The sort key of a record file is `int()` of its middle when the middle is all digits, and 0 otherwise. |
| RecordStore.RecordFileNameNumber | DCChatting.py:1156-1159 | `Records{n}.dc` is a record file whose middle is `str(n)`, which `int()` reads back as `n`; for `n >= 0` its sort key is `n`. |
| RecordStore.Latest | DCChatting.py:1144-1146 | No result exactly when the listing has no record file. Otherwise the result is the record file with the highest sort key, ties going to the last one listed, as the stable sort leaves them. |
| RecordStore.LatestUnique | DCChatting.py:1145-1146 | At most one entry is the last of the sorted record files. |
| RecordStore.LatestIgnoresSizes | DCChatting.py:1144-1146 | Which file is latest depends only on the names in the listing. |
| RecordStore.NextAfter | DCChatting.py:1152-1159 | The successor of a full file raises exactly when `int()` of its middle fails. Otherwise it is exactly `Records{int(middle)+1}.dc`, a record file whose middle `int()` reads back as one more. For an all-digit middle that is `Records{k+1}.dc` for sort key `k`, whose own sort key is `k+1`. |
| RecordStore.CurrentRecordFile | DCChatting.py:1135-1159 | With no record files the result is `Records1.dc`. If the latest file is below `MAX_RECORD_FILE_SIZE`, that file is returned. Otherwise the result is the latest file's successor, which raises exactly when `int()` fails. For an all-digit latest name it is the next number, above every existing sort key, and names no existing file. |
| RecordStore.NegativeMiddleRotates | DCChatting.py:1145-1159 | A full `Records-1.dc` sorts with key 0, but `int()` reads its middle as -1, so the next file is `Records0.dc`. |
| RecordStore.PlusMiddleRotates | DCChatting.py:1145-1159 | A full `Records+5.dc` sorts with key 0, but `int()` reads its middle as 5, so the next file is `Records6.dc`. |
| RecordStore.AppendRecord | DCChatting.py:1178-1191 | An append fails exactly when the file choice raises. Otherwise the whole record goes into the chosen file, which either grows in place or is created at the end of the listing, and the total size grows by the record's length. While the latest file is below the ceiling, exactly that entry grows. |
| RecordStore.AppendNamed | DCChatting.py:1190-1191 | `open(file, 'a')` grows the entry of that name, or creates it at the end of the listing when there is none, adding exactly the record's length. |
| RecordStore.AppendGrowsLatest | DCChatting.py:1149-1150 | When the latest file is below the ceiling, an append grows that file by the record's length and changes nothing else. |
| RecordStore.LatestOfAppended | DCChatting.py:1152-1159 | A newly created file numbered above every existing one becomes the latest. |
| RecordStore.RotationIsMonotone | DCChatting.py:1135-1159 | In a directory whose record files all have all-digit numbers, after an append the next choice has the same number as before or the next one. |
| RecordStore.AppendCanPassCeiling | DCChatting.py:1149-1150 | A file one byte under the ceiling accepts another 100-byte record and ends up above the ceiling. |
| RecordStore.LastIndexOf | DCChatting.py:1219 | The result is the position of the last occurrence of the character, or -1 when it does not occur. |
| RecordStore.SplitExt | DCChatting.py:1219 | Base and extension concatenate back to the name. The extension is empty, or a dot followed by characters that are neither dots nor `/`. It is empty exactly when every dot of the last path component comes before all its other characters. |
| RecordStore.CandidateInjective | DCChatting.py:1221 | Different counters give different candidate names. |
| RecordStore.StoredFileName | DCChatting.py:1215-1223 | The name is never one already taken. It is the original name when that is free. Otherwise it is `base_k.ext` for the smallest `k >= 1` whose candidate is free. |
| Purge.Threshold | DCChatting.py:1357 | For a positive number of days the threshold lies exactly that many days of seconds before now. Otherwise it is 0. |
| Purge.SourceCutoff | DCChatting.py:1357-1396 | A parsed record is kept exactly when its timestamp is at or after the threshold, and a line that does not parse is always kept. |
| Purge.KeepsRecentRecords | DCChatting.py:1357-1384 | For a positive number of days, a record is kept exactly when it is at most that many days old. |
| Purge.IntendedCutoff | DCChatting.py:1346-1348 | With "all records" every parsed record goes and only unparsable lines stay. Any other choice keeps what the source keeps. |
| Purge.KeptLines | DCChatting.py:1380-1397 | A line is kept exactly when it does not parse or its record is at or after the threshold, and nothing is added. |
| Purge.KeptLinesAppend | DCChatting.py:1380-1397 | Filtering commutes with concatenation, so kept lines stay in their relative order. |
| Purge.KeptLinesIdempotent | DCChatting.py:1380-1397 | Purging a second time with the same threshold changes nothing. |
| Purge.PurgeFile | DCChatting.py:1380-1401 | The file is rewritten with the kept lines. Kept and deleted records add up to the original line count. The stored files of removed file records are deleted, and the deleted-file count is how many of them existed. |
| Purge.KeepAllWhenAllKept | DCChatting.py:1380-1397 | If every line passes the filter, the file is unchanged. |
| Purge.PurgeAll | DCChatting.py:1363-1401 | Every record file is filtered in place. The deleted-record count is the drop in total lines. The disk afterwards is the disk before minus the stored files of every removed file record, and the deleted-file count is how many paths disappeared. |
| Purge.DeleteRecords | DCChatting.py:1345-1401 | `delete_records(days)` keeps in each file exactly the unparsable lines and the records at or after the threshold. Kept and deleted records add up to the original line count. Each file becomes exactly its kept lines, in order. Exactly the stored files of the removed records are gone, and the deleted-file count is how many of them existed. |
| Purge.DeleteRecordsIntended | DCChatting.py:1345-1401 | With the intended "all records" cutoff only unparsable lines survive; any other choice gives exactly what `delete_records` gives. Each file becomes exactly its kept lines under the intended cutoff, exactly the stored files of the removed records are gone, and the deleted-file count is how many of them existed. |
| Purge.AllRecordsOptionDeletesNothing | DCChatting.py:1345-1357 | As written, "all records" (`days == -1`) leaves every file unchanged and deletes no record with a non-negative timestamp. |
| Purge.AllRecordsOptionIntended | DCChatting.py:1346-1348 | With the intended cutoff, "all records" leaves only the unparsable lines in each file. |
| Transfer.ChunksOf | DCChatting.py:1010-1017 | The chunks concatenate back to the data. Each is 1 to 4096 bytes, all but the last are exactly 4096 bytes, and there are `ceil(n/4096)` of them, so none for empty data. Data of at least 4096 bytes starts with a full 4096-byte chunk; shorter non-empty data is one chunk. |
| Transfer.SplitIntoChunks | DCChatting.py:1010-1017 | The sender's offset loop produces exactly those chunks. |
| Transfer.ChunksOfStep | DCChatting.py:1011-1017 | Cutting from any offset yields the slice up to the next boundary, followed by the cuts of the rest. |
| Transfer.DataFrames | DCChatting.py:1010-1022 | After readiness the sender sends one chunk frame per chunk, in order, and then `file_end`. |
| Transfer.DataFramesEndOnce | DCChatting.py:1019-1022 | Exactly one `file_end` is sent, and it is sent last. |
| Transfer.AwaitFrom | DCChatting.py:987-1001 | From attempt `k`, the loop ends ready exactly when its last attempt got `READY`. Every earlier attempt timed out or got other bytes. An early stop comes from `READY` or from a receive error. The resends are the timeouts counted. |
| Transfer.AwaitReady | DCChatting.py:983-1007 | At most three attempts, and the resends are exactly the timeouts among them. Every attempt but the last timed out or got other bytes, and fewer than three attempts means the last one got `READY` or an error. The wait succeeds exactly when some attempt among the three gets exactly `READY` and every earlier attempt timed out or got other bytes. |
| Transfer.TimeoutsAtMostAttempts | DCChatting.py:995-998 | There are never more metadata resends than attempts. |
| Transfer.SendFile | DCChatting.py:952-1022 | Files above `MAX_RECORD_FILE_SIZE` are refused before anything is sent. Otherwise the metadata is sent once plus once per timeout. The data frames follow exactly when the readiness wait succeeds. |
| Transfer.Finish | DCChatting.py:1078-1083 | The data is saved exactly when its length equals the declared size. Otherwise the error reports both sizes. |
| Transfer.ReceiveFromOutcome | DCChatting.py:1059-1076 | The loop stops at one input, and the result says why. `Blocked` means the input ran out while still short, holding everything read. `Timeout` is raised at the first late clock reading the loop reaches. `ConnectionLost` comes right after an empty read, and `RecvError` right after a `recv` that raised. Otherwise the size check runs on everything read, reached by holding enough bytes or by `file_end`. Every input before the stop was in time, was a successful non-empty read and was not `file_end`, and left the data short. |
| Transfer.OutcomeDeterminesReception | DCChatting.py:1059-1076 | That description leaves exactly one result: any reception that fits it is the one the loop computes. |
| Transfer.ReceiveFile | DCChatting.py:1045-1083 | The reception is the loop's result from the first input with nothing received. Saved data has exactly the declared size and is the payload of the inputs consumed. A non-positive size takes no input. |
| Transfer.ReceiverReplies | DCChatting.py:1052-1117 | The receiver answers `READY` first. It adds one `file_error` when the reception failed, and sends nothing else otherwise. |
| Transfer.SendReceiveRoundTrip | DCChatting.py:1010-1076 | If each data frame arrives whole in one read and in time, the receiver saves exactly the sender's bytes, after taking exactly the chunk frames. |
| Transfer.ReceiveChunks | DCChatting.py:1059-1076 | From any point in a stream of whole chunks, the loop saves the rest of the data. |
| Transfer.WholeChunkBound | DCChatting.py:1012-1015 | A `file_chunk` frame, pickled as `{'type': 'file_chunk', 'content': chunk}`, fits one `recv(4096)` exactly when the chunk has at most 4044 bytes. Frames add 49 bytes to chunks under 256 bytes and 52 bytes otherwise. |
| Transfer.FullChunkNeverArrivesWhole | DCChatting.py:1064 | For a file of more than 4044 bytes, the first chunk frame is longer than one `recv(BUFFER_SIZE)` can return, so whole-frame delivery cannot happen. |
| Transfer.SmallFileRoundTrip | DCChatting.py:1010-1076 | A file of at most 4044 bytes goes as one chunk whose frame fits one read, and it is saved intact. |
| Transfer.GarbageCanCompleteTransfer | DCChatting.py:1068-1076 | Two unparsable bytes, a possible single read, complete a two-byte transfer: the length check is the only integrity check. |

## Left out

- Tkinter widgets, dialogs and message boxes, the chat view and its text, and PIL avatar drawing and base64 handling are user interface or foreign libraries. A decoded avatar is an opaque byte sequence.
- Sockets are not modelled: UDP broadcast, TCP accept and connect, `settimeout`, heartbeats and discovery, and `get_local_ip`. Each `recv` result is an element of an input sequence instead.
- Threads and the two locks are not modelled. `timeout_check_loop` collects stale MACs and deletes them under two separate lock acquisitions; the model treats the pair as one step.
- `pickle` and `json` are opaque serialisers. Messages and record lines are datatypes, classified by what parsing them yields.
- The filesystem is represented by values. A directory is a listing of names and sizes, `os.path.exists` is set membership, and a record file is a sequence of parsed lines. Writing `device_info.json` and creating directories are not modelled.
- `time.time()` is a parameter. Timestamps are exact reals, so floating-point rounding is not modelled.
- `load_history_messages` is not modelled. It calls `os.listridir` (DCChatting.py:1251), which does not exist, so it raises every time.
- The local rename in `broadcast_name_change` and the uuid-based MAC format of `get_local_device` are not modelled. They concern the local device, not the registry.
- Registry.OnIncoming: changes are keyed by MAC. The source increments the counter of the device object it holds, which may already have been removed from the table; that has no effect on the table, and the model does not track it.
- DeviceList.BuildDeviceList: the source keeps devices with equal names in table insertion order. A map records no insertion order, so the order among equal names is left open.
- Registry.OnNameChange: re-keying `active_chats` under the new name and updating the chat window's label are user interface state and are not modelled.
- DeviceList.SelectDevice: the source picks the first matching device in table order. The model picks some device with that name.
- Strings.Lower and Strings.IsDigits: only ASCII case mapping and ASCII digits are modelled. Python's `lower()` and `isdigit()` also cover other Unicode letters and digits.
- RecordStore.RotationIsMonotone: proved only for directories whose record file names all have plain-digit numbers. With a name such as `Records-1.dc` or `Records+5.dc`, the sort key (0, from `isdigit()`) and the number `int()` reads differ, so the next file's number is not tied to the sort key (`RecordStore.NegativeMiddleRotates`, `RecordStore.PlusMiddleRotates`).
- Registry.OnAnnounce and Registry.LookupOrCreate: a JSON `name` or `ip` is taken to be a string or absent. JSON values of other types (numbers, lists, null) are not modelled.
- RecordStore.SplitExt: this follows the POSIX `os.path.splitext`. The Windows variant, which also splits on `\`, is not modelled.
- RecordStore.StoredFileName: names are checked within one device's `Files` directory. Joining the name with the directory path is not modelled.
- Record files can grow past `MAX_RECORD_FILE_SIZE`, because the size is checked before the write (`RecordStore.AppendCanPassCeiling`). A file is never split and a record is never split across files. The model follows the code here, not a strict ceiling.
- Purge: a record whose `filepath` is not a string, and a failing `os.remove`, are not modelled. A stored file that exists is always deleted.
- Transfer.SendFile: the file dialog, the local copy the sender saves before sending, and the case where the peer has no open connection are not modelled. The file is read whole, and the wire carries one frame per `send`.
- Transfer.ReceiveFromOutcome: `Blocked` stands for a stream that runs out while the loop still wants data. On a socket without a timeout, as one accepted by the listener, `recv` then waits for ever. On a socket this side opened, `on_device_select` sets a 10-second timeout (DCChatting.py:856), so `recv` raises instead; that case is given as a `RecvRaised` input, which fails the reception with `RecvError`. The 30-second deadline is only checked at the top of each iteration, as in the source.
- Transfer.WholeChunkBound: frame lengths are those of pickle protocol 4, the default from Python 3.8 (protocol 5 gives the same bytes). Protocol 3, the default before, adds 5 bytes more, which lowers the whole-chunk limit to 4039 bytes; that protocol is not modelled.
- There is no length-prefixed framing. Each `send` carries one serialised message, and a `recv` may split or merge them; `Transfer.GarbageCanCompleteTransfer` shows one consequence.

## Findings

| source | as written | input that shows it | evidently intended | confidence | as-written member | corrected member |
|---|---|---|---|---|---|---|
| DCChatting.py:1064 | The receiver reads with `recv(BUFFER_SIZE)`, 4096 bytes, while the sender cuts the file into 4096-byte chunks and sends each in a pickled frame that adds headers. A frame holding a full chunk is longer than any single read, so it arrives split, each piece fails to unpickle, and the pieces are appended raw. | Any file of more than 4044 bytes: its first chunk frame is longer than 4096 bytes and cannot arrive in one read. | Each chunk frame arrives whole and only the chunk contents are joined, so the saved file equals the sent one. | not executed | Transfer.FullChunkNeverArrivesWhole | Transfer.SendReceiveRoundTrip |
| DCChatting.py:1357 | The threshold is `now - days*86400` if `days > 0`, else `0`. The "all records" option passes `days == -1`, so its threshold is 0. | `days == -1` with any record whose timestamp is at least 0, such as any timestamp `time.time()` writes: the record is kept and 0 records are deleted. | The confirmation dialog (DCChatting.py:1348) asks to delete all chat records, so every record should be removed. | not executed | Purge.AllRecordsOptionDeletesNothing | Purge.AllRecordsOptionIntended |

`Purge.DeleteRecords` models `delete_records` as written, using
`Purge.SourceCutoff`. `Purge.DeleteRecordsIntended` uses
`Purge.IntendedCutoff`, which removes every parsed record for `days == -1`
and otherwise agrees with the source. Both are kept. The rest of the
purge model (`Purge.PurgeAll`, `Purge.PurgeFile`) takes the cutoff as a
parameter, so its contracts hold for either.

`Transfer.SendReceiveRoundTrip` proves the intended round trip under
whole-frame delivery, which `Transfer.FullChunkNeverArrivesWhole` shows
cannot happen once a file has more than 4044 bytes. `Transfer.SmallFileRoundTrip`
covers the files for which the source as written does deliver whole
frames: those of at most 4044 bytes, sent as one chunk.

=== FILE: common.dfy ===
/** Shared vocabulary of the model: optional values, bytes and the
    program's global configuration constants (DCChatting.py, lines 18-25). */
module Common {

  /** A value that may be absent. */
  datatype Option<+T> = None | Some(value: T)

  /** One byte of file or avatar data. */
  type Byte = bv8

  type Bytes = seq<Byte>

  /** `BUFFER_SIZE`: the size of one receive call and of one file chunk. */
  const BUFFER_SIZE: nat := 4096

  /** `OFFLINE_TIMEOUT`: seconds of silence after which a device is stale. */
  const OFFLINE_TIMEOUT: real := 30.0

  /** `MAX_RECORD_FILE_SIZE`: 512 MiB, the record-file rotation ceiling and
      also the largest file the sender accepts. */
  const MAX_RECORD_FILE_SIZE: nat := 512 * 1024 * 1024

  /** Seconds in a day, as `days * 24 * 60 * 60` in the purge threshold. */
  const SECONDS_PER_DAY: real := 86400.0
}

=== FILE: device_list.dfy ===
/** The device list the user sees and picks from: `update_devices_listbox`
    builds it (sorted by name, filtered by the search box, each entry the
    name with an unread suffix) and `on_device_select` maps a picked entry
    back to a device (DCChatting.py, lines 791-827 and 829-897). */
module DeviceList {
  import opened Common
  import opened Strings
  import opened Registry

  /** The text shown for a device: its name, followed by `" (n)"` when it has
      `n > 0` unread messages. */
  function DisplayText(d: Device): (t: string)
    ensures StartsWith(t, d.name)
    ensures t == d.name <==> d.unread == 0
  {
    if d.unread > 0 then
      var t := d.name + " (" + NatToString(d.unread) + ")";
      assert |t| > |d.name| && t[..|d.name|] == d.name;
      t
    else d.name
  }

  /** With unread messages the suffix carries their count, in parentheses. */
  lemma DisplayTextShowsUnread(d: Device)
    requires d.unread > 0
    ensures var t := DisplayText(d);
      t[|d.name|..|d.name| + 2] == " (" && t[|t| - 1] == ')' && t[|d.name| + 2..|t| - 1] == NatToString(d.unread)
  {
  }

  /** The name `on_device_select` recovers from an entry: the text before the
      first `" ("`. */
  function SelectedName(text: string): string {
    FirstPart(text)
  }

  /** Reading back the shown text yields the device's name whenever the name
      itself does not contain `" ("`. */
  lemma SelectedNameRoundTrip(d: Device)
    requires NoSep(d.name)
    ensures SelectedName(DisplayText(d)) == d.name
  {
    if d.unread > 0 {
      var suffix := " (" + NatToString(d.unread) + ")";
      assert d.name + " (" + NatToString(d.unread) + ")" == d.name + suffix;
      FirstPartOfJoin(d.name, suffix);
    } else {
      FirstPartNoSep(d.name);
    }
  }

  /** A name that contains `" ("` is cut short on selection. */
  lemma SeparatorInNameIsMisread()
    ensures var d := NewDevice("10.0.0.5", "aa:bb", "Bob (laptop)", 0.0);
      SelectedName(DisplayText(d)) == "Bob" != d.name
  {
    var s := "Bob (laptop)";
    assert SepAt(s, 3);
    assert !SepAt(s, 0) && !SepAt(s, 1) && !SepAt(s, 2);
  }

  // ---------------------------------------------------------------------
  // Filtering and ordering

  /** The search box filter: an empty term keeps everything, otherwise the
      lower-cased term must occur in the lower-cased name. */
  function Matches(search: string, name: string): (b: bool)
    ensures b <==> search == [] || exists k :: OccursAt(Lower(name), Lower(search), k)
    ensures Lower(search) == Lower(name) ==> b
    ensures b ==> |search| <= |name|
  {
    ContainsOccurs(Lower(name), Lower(search));
    assert Lower(search) == Lower(name) ==> OccursAt(Lower(name), Lower(search), 0);
    Lower(search) == "" || Contains(Lower(name), Lower(search))
  }

  /** The name of `m`, or the empty name for an unknown MAC. */
  function NameOf(reg: Devices, m: Mac): string {
    if m in reg then reg[m].name else ""
  }

  ghost predicate SortedByName(reg: Devices, s: seq<Mac>) {
    forall i, j :: 0 <= i < j < |s| ==> LexLe(NameOf(reg, s[i]), NameOf(reg, s[j]))
  }

  /** Insertion of `m` after every entry whose name is not greater, as a
      stable sort would place it. */
  function Insert(reg: Devices, s: seq<Mac>, m: Mac): (r: seq<Mac>)
    ensures multiset(r) == multiset(s) + multiset{m}
    ensures SortedByName(reg, s) ==> SortedByName(reg, r)
    decreases |s|
  {
    if |s| == 0 then [m]
    else if !LexLe(NameOf(reg, s[0]), NameOf(reg, m)) then
      LexLeTotal(NameOf(reg, s[0]), NameOf(reg, m));
      InsertFront(reg, s, m);
      [m] + s
    else
      var rest := Insert(reg, s[1..], m);
      assert s == [s[0]] + s[1..];
      InsertAfter(reg, s, m, rest);
      [s[0]] + rest
  }

  lemma InsertFront(reg: Devices, s: seq<Mac>, m: Mac)
    requires |s| > 0 && LexLe(NameOf(reg, m), NameOf(reg, s[0]))
    ensures SortedByName(reg, s) ==> SortedByName(reg, [m] + s)
  {
    if SortedByName(reg, s) {
      var r := [m] + s;
      forall i, j | 0 <= i < j < |r|
        ensures LexLe(NameOf(reg, r[i]), NameOf(reg, r[j]))
      {
        if i == 0 && j > 1 {
          LexLeTransitive(NameOf(reg, m), NameOf(reg, s[0]), NameOf(reg, s[j - 1]));
        }
      }
    }
  }

  lemma InsertAfter(reg: Devices, s: seq<Mac>, m: Mac, rest: seq<Mac>)
    requires |s| > 0 && LexLe(NameOf(reg, s[0]), NameOf(reg, m))
    requires multiset(rest) == multiset(s[1..]) + multiset{m}
    requires SortedByName(reg, s[1..]) ==> SortedByName(reg, rest)
    ensures SortedByName(reg, s) ==> SortedByName(reg, [s[0]] + rest)
  {
    if SortedByName(reg, s) {
      assert SortedByName(reg, s[1..]);
      var r := [s[0]] + rest;
      forall i, j | 0 <= i < j < |r|
        ensures LexLe(NameOf(reg, r[i]), NameOf(reg, r[j]))
      {
        if i == 0 {
          var x := rest[j - 1];
          assert x in multiset(rest);
          if x != m {
            assert x in multiset(s[1..]);
            var k :| 0 <= k < |s[1..]| && s[1..][k] == x;
            assert s[k + 1] == x;
          }
        }
      }
    }
  }

  /** The matching devices. */
  ghost function Shown(reg: Devices, search: string): set<Mac> {
    set m | m in reg && Matches(search, reg[m].name)
  }

  /** `update_devices_listbox`: every device whose name matches the search
      appears exactly once, in ascending name order, each with its display
      text. Among equal names the source keeps table insertion order, which
      a map does not record, so that order is left open here. */
  method BuildDeviceList(reg: Devices, search: string) returns (macs: seq<Mac>, texts: seq<string>)
    ensures multiset(macs) == multiset(Shown(reg, search))
    ensures forall m :: m in macs <==> m in reg && Matches(search, reg[m].name)
    ensures SortedByName(reg, macs)
    ensures |texts| == |macs|
    ensures forall i :: 0 <= i < |macs| ==> macs[i] in reg && texts[i] == DisplayText(reg[macs[i]])
  {
    var remaining := reg.Keys;
    macs := [];
    while remaining != {}
      invariant remaining <= reg.Keys
      invariant multiset(macs) == multiset(set m | m in reg.Keys - remaining && Matches(search, reg[m].name))
      invariant SortedByName(reg, macs)
      decreases remaining
    {
      var k :| k in remaining;
      ghost var before := set m | m in reg.Keys - remaining && Matches(search, reg[m].name);
      remaining := remaining - {k};
      ghost var after := set m | m in reg.Keys - remaining && Matches(search, reg[m].name);
      if Matches(search, reg[k].name) {
        assert after == before + {k} && k !in before;
        macs := Insert(reg, macs, k);
      } else {
        assert after == before;
      }
    }
    assert reg.Keys - remaining == reg.Keys;
    forall m
      ensures m in macs <==> m in reg && Matches(search, reg[m].name)
    {
      assert m in macs <==> m in multiset(macs);
    }
    texts := seq(|macs|, i requires 0 <= i < |macs| && macs[i] in reg => DisplayText(reg[macs[i]]));
  }

  // ---------------------------------------------------------------------
  // on_device_select

  ghost predicate UniqueNames(reg: Devices) {
    forall m1, m2 :: m1 in reg && m2 in reg && reg[m1].name == reg[m2].name ==> m1 == m2
  }

  /** `on_device_select`: the picked text is cut at `" ("` and some device
      with exactly that name is chosen (the source takes the first in table
      order); no such device means no selection. Picking a shown entry finds
      a device of the same name when the name has no `" ("`, and finds that
      very device when names are unique. */
  method SelectDevice(reg: Devices, text: string) returns (r: Option<Mac>)
    ensures r.None? <==> forall m :: m in reg ==> reg[m].name != SelectedName(text)
    ensures r.Some? ==> r.value in reg && reg[r.value].name == SelectedName(text)
    ensures forall m :: m in reg && text == DisplayText(reg[m]) && NoSep(reg[m].name) ==>
      r.Some? && reg[r.value].name == reg[m].name
    ensures UniqueNames(reg) ==> forall m :: m in reg && text == DisplayText(reg[m]) && NoSep(reg[m].name) ==>
      r == Some(m)
  {
    var name := SelectedName(text);
    forall m | m in reg && text == DisplayText(reg[m]) && NoSep(reg[m].name)
      ensures reg[m].name == name
    {
      SelectedNameRoundTrip(reg[m]);
    }
    if m :| m in reg && reg[m].name == name {
      r := Some(m);
    } else {
      r := None;
    }
  }
}

=== FILE: purge.dfy ===
/** Deleting old chat records (`delete_records`, DCChatting.py lines
    1357-1401): every record file is rewritten keeping only the lines whose
    record is at or after a time threshold; lines that do not parse are
    kept; the stored files of removed file records are deleted; and the
    removed records and files are counted. */
module Purge {
  import opened Common

  /** One line of a record file: a record with a numeric timestamp and, for
      a file record, its `filepath`; or a line on which `json.loads` or the
      `timestamp` lookup raises. */
  datatype Line = Rec(timestamp: real, filepath: Option<string>) | Unparsed(raw: string)

  /** Which parsed records go. `Before(t)` removes records older than `t`;
      `Everything` removes every parsed record. */
  datatype Cutoff = Before(threshold: real) | Everything

  /** The threshold as the source computes it: `now - days * 86400` for a
      positive `days`, else 0. The "all records" option passes `days == -1`
      and so gets threshold 0. */
  function Threshold(days: int, now: real): (t: real)
    ensures days > 0 ==> t + (days as real) * SECONDS_PER_DAY == now
    ensures days <= 0 ==> t == 0.0
  {
    if days > 0 then now - (days as real) * SECONDS_PER_DAY else 0.0
  }

  /** The cutoff `delete_records` applies for `days`. */
  function SourceCutoff(days: int, now: real): (c: Cutoff)
    ensures forall ts, fp :: Keeps(c, Rec(ts, fp)) <==> ts >= Threshold(days, now)
    ensures forall raw :: Keeps(c, Unparsed(raw))
  {
    Before(Threshold(days, now))
  }

  /** The cutoff the "all records" option evidently intends: every record. */
  function IntendedCutoff(days: int, now: real): (c: Cutoff)
    ensures days == -1 ==> forall l :: Keeps(c, l) <==> l.Unparsed?
    ensures days != -1 ==> forall l :: Keeps(c, l) <==> Keeps(SourceCutoff(days, now), l)
  {
    if days == -1 then Everything else SourceCutoff(days, now)
  }

  /** The line survives: unparsed lines always, records at or after the
      threshold. */
  predicate Keeps(c: Cutoff, l: Line) {
    match l
    case Unparsed(_) => true
    case Rec(ts, _) => c.Before? && ts >= c.threshold
  }

  /** For a positive number of days, a record is kept exactly when it is at
      most that many days old. */
  lemma KeepsRecentRecords(days: int, now: real, ts: real, fp: Option<string>)
    requires days > 0
    ensures Keeps(SourceCutoff(days, now), Rec(ts, fp)) <==> now - ts <= (days as real) * SECONDS_PER_DAY
  {
  }

  // ---------------------------------------------------------------------
  // One record file

  /** The lines written back, in their original order. */
  function KeptLines(lines: seq<Line>, c: Cutoff): (r: seq<Line>)
    ensures |r| <= |lines|
    ensures forall l :: l in r <==> l in lines && Keeps(c, l)
  {
    if |lines| == 0 then []
    else if Keeps(c, lines[0]) then [lines[0]] + KeptLines(lines[1..], c)
    else KeptLines(lines[1..], c)
  }

  /** Filtering commutes with concatenation, so relative order is kept. */
  lemma {:induction false} KeptLinesAppend(a: seq<Line>, b: seq<Line>, c: Cutoff)
    ensures KeptLines(a + b, c) == KeptLines(a, c) + KeptLines(b, c)
    decreases |a|
  {
    if |a| > 0 {
      assert (a + b)[1..] == a[1..] + b;
      KeptLinesAppend(a[1..], b, c);
    } else {
      assert a + b == b;
    }
  }

  /** Purging again with the same cutoff changes nothing. */
  lemma {:induction false} KeptLinesIdempotent(lines: seq<Line>, c: Cutoff)
    ensures KeptLines(KeptLines(lines, c), c) == KeptLines(lines, c)
    decreases |lines|
  {
    if |lines| > 0 {
      KeptLinesIdempotent(lines[1..], c);
    }
  }

  /** The stored files named by the removed file records. */
  ghost function PurgedPaths(lines: seq<Line>, c: Cutoff): set<string> {
    set i | 0 <= i < |lines| && lines[i].Rec? && !Keeps(c, lines[i]) && lines[i].filepath.Some? :: lines[i].filepath.value
  }

  datatype Outcome = Outcome(kept: seq<Line>, deletedRecords: nat, deletedFiles: nat, disk: set<string>)

  /** One record file, line by line. `disk` is the set of existing paths;
      a removed file record's path is deleted and counted when it exists. */
  function PurgeFile(lines: seq<Line>, c: Cutoff, disk: set<string>): (r: Outcome)
    ensures r.kept == KeptLines(lines, c)
    ensures r.deletedRecords + |r.kept| == |lines|
    ensures r.disk == disk - PurgedPaths(lines, c)
    ensures r.deletedFiles == |disk * PurgedPaths(lines, c)|
    decreases |lines|
  {
    if |lines| == 0 then Outcome([], 0, 0, disk)
    else
      var l := lines[0];
      var rest := lines[1..];
      PurgedPathsCons(lines, c);
      if Keeps(c, l) then
        var o := PurgeFile(rest, c, disk);
        Outcome([l] + o.kept, o.deletedRecords, o.deletedFiles, o.disk)
      else if l.filepath.Some? && l.filepath.value in disk then
        var p := l.filepath.value;
        var o := PurgeFile(rest, c, disk - {p});
        RemovedFileCount(disk, p, PurgedPaths(rest, c));
        Outcome(o.kept, o.deletedRecords + 1, o.deletedFiles + 1, o.disk)
      else
        var o := PurgeFile(rest, c, disk);
        assert disk * PurgedPaths(lines, c) == disk * PurgedPaths(rest, c);
        Outcome(o.kept, o.deletedRecords + 1, o.deletedFiles, o.disk)
  }

  lemma PurgedPathsCons(lines: seq<Line>, c: Cutoff)
    requires |lines| > 0
    ensures PurgedPaths(lines, c) ==
      PurgedPaths(lines[1..], c) +
      (if lines[0].Rec? && !Keeps(c, lines[0]) && lines[0].filepath.Some? then {lines[0].filepath.value} else {})
  {
    var rest := lines[1..];
    forall x | x in PurgedPaths(rest, c)
      ensures x in PurgedPaths(lines, c)
    {
      var i :| 0 <= i < |rest| && rest[i].Rec? && !Keeps(c, rest[i]) && rest[i].filepath.Some? && rest[i].filepath.value == x;
      assert lines[i + 1] == rest[i];
    }
    forall x | x in PurgedPaths(lines, c)
      ensures x in PurgedPaths(rest, c) || (lines[0].Rec? && !Keeps(c, lines[0]) && lines[0].filepath.Some? && x == lines[0].filepath.value)
    {
      var i :| 0 <= i < |lines| && lines[i].Rec? && !Keeps(c, lines[i]) && lines[i].filepath.Some? && lines[i].filepath.value == x;
      if i > 0 {
        assert rest[i - 1] == lines[i];
      }
    }
  }

  lemma RemovedFileCount(disk: set<string>, p: string, rest: set<string>)
    requires p in disk
    ensures |(disk - {p}) * rest| + 1 == |disk * (rest + {p})|
  {
    assert disk * (rest + {p}) == ((disk - {p}) * rest) + {p};
  }

  // ---------------------------------------------------------------------
  // Every record file

  datatype Report = Report(files: seq<seq<Line>>, deletedRecords: nat, deletedFiles: nat, disk: set<string>)

  function LineCount(files: seq<seq<Line>>): nat {
    if |files| == 0 then 0 else |files[0]| + LineCount(files[1..])
  }

  /** `delete_records` over all record files of all device directories, in
      listing order: each file is filtered, and the counts add up. */
  function PurgeAll(files: seq<seq<Line>>, c: Cutoff, disk: set<string>): (r: Report)
    ensures |r.files| == |files|
    ensures forall i :: 0 <= i < |files| ==> r.files[i] == KeptLines(files[i], c)
    ensures r.deletedRecords + LineCount(r.files) == LineCount(files)
    ensures r.disk == disk - AllPurgedPaths(files, c)
    ensures r.deletedFiles == |disk - r.disk|
    decreases |files|
  {
    if |files| == 0 then Report([], 0, 0, disk)
    else
      var o := PurgeFile(files[0], c, disk);
      var rest := PurgeAll(files[1..], c, o.disk);
      var r := Report([o.kept] + rest.files, o.deletedRecords + rest.deletedRecords,
                      o.deletedFiles + rest.deletedFiles, rest.disk);
      assert r.files[1..] == rest.files;
      RemovedInTwoSteps(disk, o.disk, rest.disk, PurgedPaths(files[0], c));
      r
  }

  /** The stored files named by the removed file records of every file. */
  ghost function AllPurgedPaths(files: seq<seq<Line>>, c: Cutoff): set<string>
    decreases |files|
  {
    if |files| == 0 then {} else PurgedPaths(files[0], c) + AllPurgedPaths(files[1..], c)
  }

  lemma RemovedInTwoSteps(d0: set<string>, d1: set<string>, d2: set<string>, p: set<string>)
    requires d1 == d0 - p && d2 <= d1
    ensures |d0 * p| + |d1 - d2| == |d0 - d2|
  {
    assert d0 * p == d0 - d1;
    assert d0 - d2 == (d0 - d1) + (d1 - d2);
    assert (d0 - d1) !! (d1 - d2);
  }

  /** `delete_records(days)` as the source computes it. */
  function DeleteRecords(files: seq<seq<Line>>, days: int, now: real, disk: set<string>): (r: Report)
    ensures |r.files| == |files|
    ensures forall i :: 0 <= i < |files| ==>
      forall l :: l in r.files[i] <==> l in files[i] && (l.Unparsed? || l.timestamp >= Threshold(days, now))
    ensures r.deletedRecords + LineCount(r.files) == LineCount(files)
    ensures forall i :: 0 <= i < |files| ==> r.files[i] == KeptLines(files[i], SourceCutoff(days, now))
    ensures r.disk == disk - AllPurgedPaths(files, SourceCutoff(days, now))
    ensures r.deletedFiles == |disk - r.disk|
  {
    PurgeAll(files, SourceCutoff(days, now), disk)
  }

  /** `delete_records(days)` with the "all records" option deleting every
      record, as its confirmation dialog announces. */
  function DeleteRecordsIntended(files: seq<seq<Line>>, days: int, now: real, disk: set<string>): (r: Report)
    ensures days != -1 ==> r == DeleteRecords(files, days, now, disk)
    ensures |r.files| == |files|
    ensures days == -1 ==> forall i :: 0 <= i < |files| ==> forall l :: l in r.files[i] <==> l in files[i] && l.Unparsed?
    ensures r.deletedRecords + LineCount(r.files) == LineCount(files)
    ensures forall i :: 0 <= i < |files| ==> r.files[i] == KeptLines(files[i], IntendedCutoff(days, now))
    ensures r.disk == disk - AllPurgedPaths(files, IntendedCutoff(days, now))
    ensures r.deletedFiles == |disk - r.disk|
  {
    var c := IntendedCutoff(days, now);
    assert days != -1 ==> c == SourceCutoff(days, now);
    PurgeAll(files, c, disk)
  }

  /** As written, "all records" deletes no record whose timestamp is not
      negative, which is every record the program writes. */
  lemma AllRecordsOptionDeletesNothing(files: seq<seq<Line>>, now: real, disk: set<string>)
    requires forall i, k :: 0 <= i < |files| && 0 <= k < |files[i]| && files[i][k].Rec? ==> files[i][k].timestamp >= 0.0
    ensures DeleteRecords(files, -1, now, disk).files == files
    ensures DeleteRecords(files, -1, now, disk).deletedRecords == 0
  {
    var r := DeleteRecords(files, -1, now, disk);
    forall i | 0 <= i < |files|
      ensures r.files[i] == files[i]
    {
      KeepAllWhenAllKept(files[i], SourceCutoff(-1, now));
    }
    assert r.files == files;
  }

  lemma {:induction false} KeepAllWhenAllKept(lines: seq<Line>, c: Cutoff)
    requires forall k :: 0 <= k < |lines| ==> Keeps(c, lines[k])
    ensures KeptLines(lines, c) == lines
    decreases |lines|
  {
    if |lines| > 0 {
      KeepAllWhenAllKept(lines[1..], c);
    }
  }

  /** With the intended cutoff, "all records" leaves only the lines that do
      not parse, and counts every record as deleted. */
  lemma AllRecordsOptionIntended(files: seq<seq<Line>>, now: real, disk: set<string>)
    ensures var r := DeleteRecordsIntended(files, -1, now, disk);
      && (forall i :: 0 <= i < |files| ==> forall l :: l in r.files[i] <==> l in files[i] && l.Unparsed?)
  {
  }
}

=== FILE: record_store.dfy ===
/** The per-device record store on disk: choosing the record file to append
    to (`get_current_record_file`, DCChatting.py lines 1135-1159), appending
    one record line to it (`save_message` / `save_file`, lines 1161-1240),
    and choosing a free name for a stored file (lines 1215-1223).

    A directory is its `os.listdir` listing in listing order, each entry
    with the size `os.path.getsize` reports; the set of taken names stands
    for `os.path.exists`. */
module RecordStore {
  import opened Common
  import opened Strings

  datatype Entry = Entry(name: string, size: nat)

  type Listing = seq<Entry>

  // ---------------------------------------------------------------------
  // Record-file names

  /** A record file: name starts with `Records` and ends with `.dc`. */
  predicate IsRecordFile(name: string) {
    StartsWith(name, "Records") && EndsWith(name, ".dc")
  }

  /** The two affixes cannot overlap, so a record file name has a (possibly
      empty) middle `f[7:-3]`. */
  lemma RecordFileNameLength(name: string)
    requires IsRecordFile(name)
    ensures |name| >= 10
  {
    assert name[|name| - 3..][0] == '.';
    assert forall k :: 0 <= k < 7 ==> name[..7][k] != '.';
  }

  function Middle(name: string): string
    requires IsRecordFile(name)
  {
    RecordFileNameLength(name);
    name[7..|name| - 3]
  }

  /** The sort key `int(f[7:-3]) if f[7:-3].isdigit() else 0`: the number
      `int()` reads from a plain-digit middle, and 0 for any other. */
  function NumberOf(name: string): nat
    requires IsRecordFile(name)
  {
    if IsDigits(Middle(name)) then ParseDecimal(Middle(name)) else 0
  }

  /** The sort key agrees with `int()` on plain-digit middles and is 0 on
      every other. */
  lemma NumberOfIsInt(name: string)
    requires IsRecordFile(name)
    ensures IsDigits(Middle(name)) ==> PyInt(Middle(name)) == Some(NumberOf(name))
    ensures !IsDigits(Middle(name)) ==> NumberOf(name) == 0
  {
    if IsDigits(Middle(name)) {
      PyIntOfDigits(Middle(name));
    }
  }

  /** `f"Records{n}.dc"`. */
  function RecordFileName(n: int): string {
    "Records" + IntToString(n) + ".dc"
  }

  /** The name made for `n` is a record file whose middle `int()` reads
      back as `n`; for `n >= 0` that is also its sort key. */
  lemma RecordFileNameNumber(n: int)
    ensures IsRecordFile(RecordFileName(n))
    ensures Middle(RecordFileName(n)) == IntToString(n)
    ensures PyInt(Middle(RecordFileName(n))) == Some(n)
    ensures n >= 0 ==> NumberOf(RecordFileName(n)) == n
  {
    var s := RecordFileName(n);
    assert s[..7] == "Records";
    assert s[|s| - 3..] == ".dc";
    assert s[7..|s| - 3] == IntToString(n);
    PyIntOfIntToString(n);
    if n >= 0 {
      ParseNatToString(n);
    }
  }

  predicate RecordAt(l: Listing, i: int) {
    0 <= i < |l| && IsRecordFile(l[i].name)
  }

  function NumberAt(l: Listing, i: int): nat
    requires RecordAt(l, i)
  {
    NumberOf(l[i].name)
  }

  /** Entry `i` is what `record_files[-1]` is after the stable sort by
      number: a record file with the greatest number, and the last such in
      listing order. */
  ghost predicate IsLatest(l: Listing, i: int) {
    && RecordAt(l, i)
    && (forall j :: RecordAt(l, j) ==> NumberAt(l, j) <= NumberAt(l, i))
    && (forall j :: i < j && RecordAt(l, j) ==> NumberAt(l, j) < NumberAt(l, i))
  }

  ghost predicate NoRecordFiles(l: Listing) {
    forall j :: 0 <= j < |l| ==> !IsRecordFile(l[j].name)
  }

  /** The index of the last entry of the sorted record-file list, if any. */
  function Latest(l: Listing): (r: Option<nat>)
    ensures r.None? <==> NoRecordFiles(l)
    ensures r.Some? ==> IsLatest(l, r.value)
    decreases |l|
  {
    if |l| == 0 then None
    else
      var init := l[..|l| - 1];
      var p := Latest(init);
      assert forall j :: 0 <= j < |l| - 1 ==> l[j] == init[j];
      assert forall j :: RecordAt(l, j) && j < |l| - 1 ==> RecordAt(init, j) && NumberAt(l, j) == NumberAt(init, j);
      assert forall j :: RecordAt(init, j) ==> RecordAt(l, j);
      if !IsRecordFile(l[|l| - 1].name) then p
      else if p.None? || NumberOf(l[|l| - 1].name) >= NumberAt(l, p.value) then Some(|l| - 1)
      else p
  }

  /** Only the names decide which entry is latest. */
  lemma {:induction false} LatestIgnoresSizes(l1: Listing, l2: Listing)
    requires |l1| == |l2|
    requires forall i :: 0 <= i < |l1| ==> l1[i].name == l2[i].name
    ensures Latest(l1) == Latest(l2)
    decreases |l1|
  {
    if |l1| > 0 {
      LatestIgnoresSizes(l1[..|l1| - 1], l2[..|l2| - 1]);
    }
  }

  // ---------------------------------------------------------------------
  // get_current_record_file

  /** The file to append to, or the `ValueError` `int()` raises when the
      full latest file has no number. */
  datatype Choice = Use(name: string) | BadNumber(name: string)

  /** The file that follows a full record file `name`: `int()` of its
      middle plus one, or the `ValueError` raised when `int()` fails. */
  function NextAfter(name: string): (c: Choice)
    requires IsRecordFile(name)
    ensures c.BadNumber? <==> PyInt(Middle(name)).None?
    ensures c.BadNumber? ==> c.name == name
    ensures c.Use? ==> IsRecordFile(c.name) && PyInt(Middle(c.name)) == Some(PyInt(Middle(name)).value + 1)
    ensures c.Use? ==> c.name == RecordFileName(PyInt(Middle(name)).value + 1)
    ensures IsDigits(Middle(name)) ==> c == Use(RecordFileName(NumberOf(name) + 1)) && NumberOf(c.name) == NumberOf(name) + 1
  {
    match PyInt(Middle(name))
    case None =>
      assert !IsDigits(Middle(name)) by { NumberOfIsInt(name); }
      BadNumber(name)
    case Some(v) =>
      assert IsDigits(Middle(name)) ==> v == NumberOf(name) by { NumberOfIsInt(name); }
      RecordFileNameNumber(v + 1);
      Use(RecordFileName(v + 1))
  }

  /** `get_current_record_file`. */
  function CurrentRecordFile(l: Listing): (c: Choice)
    ensures c.Use? ==> IsRecordFile(c.name)
    ensures NoRecordFiles(l) ==> c == Use("Records1.dc")
    ensures Latest(l).Some? ==> var i := Latest(l).value;
      l[i].size < MAX_RECORD_FILE_SIZE ==> c == Use(l[i].name)
    ensures Latest(l).Some? ==> var i := Latest(l).value;
      l[i].size >= MAX_RECORD_FILE_SIZE ==> c == NextAfter(l[i].name)
    ensures Latest(l).Some? ==> var i := Latest(l).value;
      l[i].size >= MAX_RECORD_FILE_SIZE && IsDigits(Middle(l[i].name)) ==>
        && c == Use(RecordFileName(NumberAt(l, i) + 1))
        && forall j :: RecordAt(l, j) ==> NumberAt(l, j) < NumberOf(c.name) && l[j].name != c.name
  {
    match Latest(l)
    case None =>
      RecordFileNameNumber(1);
      assert RecordFileName(1) == "Records1.dc";
      Use("Records1.dc")
    case Some(i) =>
      if l[i].size < MAX_RECORD_FILE_SIZE then Use(l[i].name)
      else NextAfter(l[i].name)
  }

  /** `int()` takes a sign the sort key ignores: a full `Records-1.dc` is
      followed by `Records0.dc`, ... */
  lemma NegativeMiddleRotates()
    ensures CurrentRecordFile([Entry("Records-1.dc", MAX_RECORD_FILE_SIZE)]) == Use("Records0.dc")
  {
    SignedMiddle("Records-1.dc", "-1", 0);
    assert IntToString(0) == "0";
  }

  /** ... and a full `Records+5.dc` by `Records6.dc`. */
  lemma PlusMiddleRotates()
    ensures CurrentRecordFile([Entry("Records+5.dc", MAX_RECORD_FILE_SIZE)]) == Use("Records6.dc")
  {
    SignedMiddle("Records+5.dc", "+5", 6);
    assert IntToString(6) == "6";
  }

  lemma SignedMiddle(name: string, middle: string, next: int)
    requires name == "Records" + middle + ".dc" && |middle| == 2
    requires (middle[0] == '-' || middle[0] == '+') && IsAsciiDigit(middle[1])
    requires next == (if middle[0] == '-' then -(DigitValue(middle[1]) as int) else DigitValue(middle[1])) + 1
    ensures CurrentRecordFile([Entry(name, MAX_RECORD_FILE_SIZE)]) == Use(RecordFileName(next))
  {
    var l := [Entry(name, MAX_RECORD_FILE_SIZE)];
    assert IsRecordFile(name) by {
      assert name[..7] == "Records" && name[|name| - 3..] == ".dc";
    }
    assert Latest(l[..0]) == None;
    assert Latest(l) == Some(0);
    assert Middle(name) == middle;
    assert middle[1..] == [middle[1]];
    assert ParseDecimal(middle[1..]) == DigitValue(middle[1]);
    PyIntSigned(middle);
  }

  // ---------------------------------------------------------------------
  // Appending one record line

  function TotalSize(l: Listing): nat {
    if |l| == 0 then 0 else TotalSize(l[..|l| - 1]) + l[|l| - 1].size
  }

  lemma {:induction false} TotalSizeUpdate(l: Listing, i: nat, e: Entry)
    requires i < |l|
    ensures TotalSize(l[i := e]) == TotalSize(l) - l[i].size + e.size
    decreases |l|
  {
    var l2 := l[i := e];
    assert l2[..|l2| - 1] == if i == |l| - 1 then l[..|l| - 1] else l[..|l| - 1][i := e];
    if i < |l| - 1 {
      TotalSizeUpdate(l[..|l| - 1], i, e);
    }
  }

  lemma TotalSizeAppend(l: Listing, e: Entry)
    ensures TotalSize(l + [e]) == TotalSize(l) + e.size
  {
    assert (l + [e])[..|l|] == l;
  }

  datatype Append = Appended(listing: Listing, file: string) | AppendFailed

  /** The last entry named `name`, if any (`os.path.exists`). */
  function Find(l: Listing, name: string): (r: Option<nat>)
    ensures r.Some? ==> r.value < |l| && l[r.value].name == name
    ensures r.None? <==> forall j :: 0 <= j < |l| ==> l[j].name != name
    decreases |l|
  {
    if |l| == 0 then None
    else if l[|l| - 1].name == name then Some(|l| - 1)
    else
      var r := Find(l[..|l| - 1], name);
      assert forall j :: 0 <= j < |l| - 1 ==> l[..|l| - 1][j] == l[j];
      r
  }

  /** One record line of `n` bytes written by `save_message` or `save_file`:
      it goes whole into the chosen file, which grows when it exists (the
      latest file below the ceiling, or a full latest file's successor name
      that is already taken) and is created at the end of the listing
      otherwise. A `BadNumber` choice raises and nothing is written. */
  function AppendRecord(l: Listing, n: nat): (r: Append)
    ensures CurrentRecordFile(l).BadNumber? <==> r.AppendFailed?
    ensures r.Appended? ==> r.file == CurrentRecordFile(l).name
    ensures r.Appended? ==> TotalSize(r.listing) == TotalSize(l) + n
    ensures r.Appended? ==> Placed(l, n, r.listing, r.file)
    ensures Latest(l).Some? && l[Latest(l).value].size < MAX_RECORD_FILE_SIZE ==>
      var i := Latest(l).value;
      r == Appended(l[i := Entry(l[i].name, l[i].size + n)], l[i].name)
  {
    match CurrentRecordFile(l)
    case BadNumber(_) => AppendFailed
    case Use(name) =>
      var p := Latest(l);
      if p.Some? && l[p.value].size < MAX_RECORD_FILE_SIZE then
        var r := AppendAt(l, n, name, p);
        assert GrewAt(l, n, r.listing, name, p.value);
        r
      else AppendNamed(l, n, name)
  }

  /** `grown` is `l` with entry `i`, called `name`, longer by `n` bytes. */
  predicate GrewAt(l: Listing, n: nat, grown: Listing, name: string, i: int) {
    0 <= i < |l| && l[i].name == name && grown == l[i := Entry(name, l[i].size + n)]
  }

  /** `grown` is `l` after `n` bytes went into the file `name`: an
      existing entry of that name grew, or, when there was none, a new
      entry was added at the end. */
  ghost predicate Placed(l: Listing, n: nat, grown: Listing, name: string) {
    || (exists i :: GrewAt(l, n, grown, name, i))
    || (grown == l + [Entry(name, n)] && forall j :: 0 <= j < |l| ==> l[j].name != name)
  }

  /** The record line goes into the last entry called `name`, or into a
      new entry at the end of the listing when there is none. */
  function AppendNamed(l: Listing, n: nat, name: string): (r: Append)
    ensures r.Appended? && r.file == name && TotalSize(r.listing) == TotalSize(l) + n
    ensures Placed(l, n, r.listing, name)
  {
    var at := Find(l, name);
    var r := AppendAt(l, n, name, at);
    assert at.Some? ==> GrewAt(l, n, r.listing, name, at.value);
    r
  }

  /** While the latest record file is below the ceiling, a record line
      grows that file and nothing else. */
  lemma AppendGrowsLatest(l: Listing, n: nat, i: int)
    requires IsLatest(l, i) && l[i].size < MAX_RECORD_FILE_SIZE
    ensures AppendRecord(l, n) == Appended(l[i := Entry(l[i].name, l[i].size + n)], l[i].name)
  {
    LatestUnique(l, i, Latest(l).value);
    assert Latest(l).Some? && Latest(l).value == i && l[Latest(l).value].size < MAX_RECORD_FILE_SIZE;
  }

  /** The record line goes into entry `at` of the listing, or into a new
      entry at its end. */
  function AppendAt(l: Listing, n: nat, name: string, at: Option<nat>): (r: Append)
    requires at.Some? ==> at.value < |l| && l[at.value].name == name
    requires at.None? ==> forall j :: 0 <= j < |l| ==> l[j].name != name
    ensures r.Appended? && r.file == name && TotalSize(r.listing) == TotalSize(l) + n
    ensures at.Some? ==> r.listing == l[at.value := Entry(name, l[at.value].size + n)]
    ensures at.None? ==> r.listing == l + [Entry(name, n)]
  {
    match at
    case Some(i) =>
      TotalSizeUpdate(l, i, Entry(name, l[i].size + n));
      Appended(l[i := Entry(name, l[i].size + n)], name)
    case None =>
      TotalSizeAppend(l, Entry(name, n));
      Appended(l + [Entry(name, n)], name)
  }

  /** At most one entry is the latest. */
  lemma LatestUnique(l: Listing, i: int, j: int)
    requires IsLatest(l, i) && IsLatest(l, j)
    ensures i == j
  {
    if i < j {
      assert false;
    } else if j < i {
      assert false;
    }
  }

  /** A newly created record file, numbered above every existing one, is
      the latest of the new listing. */
  lemma LatestOfAppended(l: Listing, e: Entry)
    requires IsRecordFile(e.name)
    requires forall j :: RecordAt(l, j) ==> NumberAt(l, j) < NumberOf(e.name)
    ensures Latest(l + [e]) == Some(|l|)
  {
    var l2 := l + [e];
    assert l2[..|l2| - 1] == l;
  }

  /** Rotation only moves forward, one number at a time, in a directory
      whose record files all carry plain-digit numbers: after any append,
      the file the next append would use has the same number or the next
      one. */
  lemma RotationIsMonotone(l: Listing, n: nat)
    requires forall j :: RecordAt(l, j) ==> IsDigits(Middle(l[j].name))
    requires AppendRecord(l, n).Appended?
    ensures var c1 := CurrentRecordFile(l);
      var c2 := CurrentRecordFile(AppendRecord(l, n).listing);
      c2.Use? ==> NumberOf(c1.name) <= NumberOf(c2.name) <= NumberOf(c1.name) + 1
  {
    match Latest(l)
    case None => RotateFromNothing(l, n);
    case Some(i) =>
      if l[i].size < MAX_RECORD_FILE_SIZE {
        RotateBelowCeiling(l, n, i);
      } else {
        RotateAfterFull(l, n, i);
      }
  }

  lemma RotateFromNothing(l: Listing, n: nat)
    requires Latest(l).None?
    ensures var c1 := CurrentRecordFile(l);
      var c2 := CurrentRecordFile(AppendRecord(l, n).listing);
      c2.Use? ==> NumberOf(c1.name) <= NumberOf(c2.name) <= NumberOf(c1.name) + 1
  {
    var first := "Records1.dc";
    assert first == RecordFileName(1) && IsDigits(Middle(first)) by {
      RecordFileNameNumber(1);
    }
    assert CurrentRecordFile(l) == Use(first);
    assert Find(l, first).None?;
    RotateToNewFile(l, n, first);
  }

  lemma RotateBelowCeiling(l: Listing, n: nat, i: nat)
    requires Latest(l) == Some(i) && l[i].size < MAX_RECORD_FILE_SIZE
    requires IsDigits(Middle(l[i].name))
    ensures var c1 := CurrentRecordFile(l);
      var c2 := CurrentRecordFile(AppendRecord(l, n).listing);
      c2.Use? ==> NumberOf(c1.name) <= NumberOf(c2.name) <= NumberOf(c1.name) + 1
  {
    var l2 := AppendRecord(l, n).listing;
    LatestIgnoresSizes(l, l2);
    NextAfterFull(l2, i);
  }

  lemma RotateAfterFull(l: Listing, n: nat, i: nat)
    requires Latest(l) == Some(i) && l[i].size >= MAX_RECORD_FILE_SIZE
    requires IsDigits(Middle(l[i].name))
    ensures var c1 := CurrentRecordFile(l);
      var c2 := CurrentRecordFile(AppendRecord(l, n).listing);
      c2.Use? ==> NumberOf(c1.name) <= NumberOf(c2.name) <= NumberOf(c1.name) + 1
  {
    var name := RecordFileName(NumberAt(l, i) + 1);
    RecordFileNameNumber(NumberAt(l, i) + 1);
    assert CurrentRecordFile(l) == Use(name);
    assert Find(l, name).None? by {
      forall j | 0 <= j < |l|
        ensures l[j].name != name
      {
        if !RecordAt(l, j) {
          assert IsRecordFile(name);
        }
      }
    }
    RotateToNewFile(l, n, name);
  }

  /** The chosen file does not exist yet and is numbered above every record
      file: it is created, becomes the latest, and the next choice is it or
      its successor. */
  lemma RotateToNewFile(l: Listing, n: nat, name: string)
    requires CurrentRecordFile(l) == Use(name) && Find(l, name).None?
    requires IsRecordFile(name) && IsDigits(Middle(name))
    requires forall j :: RecordAt(l, j) ==> NumberAt(l, j) < NumberOf(name)
    ensures var c1 := CurrentRecordFile(l);
      var c2 := CurrentRecordFile(AppendRecord(l, n).listing);
      c2.Use? ==> NumberOf(c1.name) <= NumberOf(c2.name) <= NumberOf(c1.name) + 1
  {
    var l2 := l + [Entry(name, n)];
    assert AppendRecord(l, n).listing == l2;
    LatestOfAppended(l, Entry(name, n));
    NextAfterFull(l2, |l|);
  }

  /** With a plain-digit latest file, the next choice is that file or the
      one numbered after it. */
  lemma NextAfterFull(l: Listing, i: nat)
    requires IsLatest(l, i) && IsDigits(Middle(l[i].name))
    ensures var c := CurrentRecordFile(l);
      c.Use? && NumberAt(l, i) <= NumberOf(c.name) <= NumberAt(l, i) + 1
  {
    RecordFileNameNumber(NumberAt(l, i) + 1);
  }

  /** The size test comes before the write, so a file just under the ceiling
      takes one more record and ends up above it. */
  lemma AppendCanPassCeiling()
    ensures var l := [Entry("Records1.dc", MAX_RECORD_FILE_SIZE - 1)];
      var r := AppendRecord(l, 100);
      r.Appended? && r.listing == [Entry("Records1.dc", MAX_RECORD_FILE_SIZE + 99)]
  {
    var l := [Entry("Records1.dc", MAX_RECORD_FILE_SIZE - 1)];
    assert IsRecordFile(l[0].name);
    assert Latest(l[..0]) == None;
    assert Latest(l) == Some(0);
  }

  // ---------------------------------------------------------------------
  // Stored-file names

  /** The index of the last `c` in `s`, or -1 (`str.rfind`). */
  function LastIndexOf(s: string, c: char): (r: int)
    ensures -1 <= r < |s|
    ensures r >= 0 ==> s[r] == c
    ensures forall k :: r < k < |s| ==> s[k] != c
    decreases |s|
  {
    if |s| == 0 then -1
    else if s[|s| - 1] == c then |s| - 1
    else LastIndexOf(s[..|s| - 1], c)
  }

  /** Some character of `s[from..to]` is not a dot. */
  predicate HasNonDot(s: string, from: int, to: int)
    requires 0 <= from <= to <= |s|
  {
    exists k :: from <= k < to && s[k] != '.'
  }

  /** `os.path.splitext` (POSIX): the extension runs from the last dot, if
      that dot comes after the last `/` and is not one of the dots a file
      name starts with. */
  function SplitExt(p: string): (r: (string, string))
    ensures r.0 + r.1 == p
    ensures r.1 == [] || (r.1[0] == '.' && forall k :: 1 <= k < |r.1| ==> r.1[k] != '.' && r.1[k] != '/')
    ensures r.1 == [] <==> OnlyLeadingDots(p, LastIndexOf(p, '/') + 1)
  {
    var sep := LastIndexOf(p, '/');
    var dot := LastIndexOf(p, '.');
    if dot > sep && HasNonDot(p, sep + 1, dot) then
      assert p[..dot] + p[dot..] == p;
      assert !OnlyLeadingDots(p, sep + 1) by {
        assert p[dot] == '.';
      }
      (p[..dot], p[dot..])
    else
      assert OnlyLeadingDots(p, sep + 1) by {
        forall k | sep + 1 <= k < |p| && p[k] == '.'
          ensures !HasNonDot(p, sep + 1, k)
        {
          assert k <= dot;
        }
      }
      (p, [])
  }

  /** Every dot of the last path component `p[from..]` comes before any
      other character of it, as in `..` or `.bashrc`: such a name has no
      extension. */
  ghost predicate OnlyLeadingDots(p: string, from: int)
    requires 0 <= from <= |p|
  {
    forall k :: from <= k < |p| && p[k] == '.' ==> !HasNonDot(p, from, k)
  }

  /** `f"{base}_{k}{ext}"`. */
  function Candidate(base: string, k: nat, ext: string): string {
    base + "_" + NatToString(k) + ext
  }

  lemma CandidateInjective(base: string, ext: string, j: nat, k: nat)
    requires Candidate(base, j, ext) == Candidate(base, k, ext)
    ensures j == k
  {
    var cj, ck := Candidate(base, j, ext), Candidate(base, k, ext);
    var b := |base| + 1;
    assert |NatToString(j)| == |NatToString(k)|;
    assert cj[b..b + |NatToString(j)|] == NatToString(j);
    assert ck[b..b + |NatToString(k)|] == NatToString(k);
    NatToStringInjective(j, k);
  }

  /** The name the file is stored under in `save_file`: the original when it
      is free, else `base_k.ext` for the smallest `k >= 1` that is free. */
  method StoredFileName(filename: string, existing: set<string>) returns (r: string)
    ensures r !in existing
    ensures filename !in existing ==> r == filename
    ensures filename in existing ==>
      exists k :: 1 <= k && r == Candidate(SplitExt(filename).0, k, SplitExt(filename).1) &&
        forall j :: 1 <= j < k ==> Candidate(SplitExt(filename).0, j, SplitExt(filename).1) in existing
  {
    var (base, ext) := SplitExt(filename);
    r := filename;
    var counter: nat := 1;
    ghost var checked: set<string> := {};
    while r in existing
      invariant counter >= 1
      invariant counter == 1 ==> r == filename
      invariant counter > 1 ==> filename in existing && r == Candidate(base, counter - 1, ext)
      invariant forall j :: 1 <= j < counter - 1 ==> Candidate(base, j, ext) in existing
      invariant checked <= existing
      invariant forall x :: x in checked ==> x == filename || exists j :: 1 <= j < counter - 1 && x == Candidate(base, j, ext)
      invariant r !in checked
      decreases existing - checked
    {
      checked := checked + {r};
      var next := Candidate(base, counter, ext);
      if next in checked {
        if next != filename {
          if counter > 1 && next == r {
            CandidateInjective(base, ext, counter - 1, counter);
          } else {
            var j :| 1 <= j < counter - 1 && next == Candidate(base, j, ext);
            CandidateInjective(base, ext, j, counter);
          }
        }
        assert false;
      }
      r := next;
      counter := counter + 1;
    }
  }
}

=== FILE: registry.dfy ===
/** The device registry: the table `self.devices` from MAC address to
    `NetworkDevice` (DCChatting.py, lines 27-109 and 133), and the updates
    the UDP listener, the TCP handshake and message handlers, the timeout
    sweep and the chat view make to it. Each update is a pure function of
    the old table; the clock reading `now` is a parameter. */
module Registry {
  import opened Common

  type Mac = string

  /** A device's avatar: the generated default for a name (image drawing is
      not modelled), decoded bytes, or nothing when decoding failed. */
  datatype Avatar = Default(forName: string) | Custom(data: Bytes) | Missing

  /** One `NetworkDevice`. */
  datatype Device = Device(
    ip: string,
    mac: Mac,
    name: string,
    avatar: Avatar,
    timestamp: real,
    online: bool,
    unread: nat)

  type Devices = map<Mac, Device>

  /** Every entry is filed under its own MAC: at most one device per MAC. */
  ghost predicate Valid(reg: Devices) {
    forall m :: m in reg ==> reg[m].mac == m
  }

  /** Every device in the table is flagged online. */
  ghost predicate AllOnline(reg: Devices) {
    forall m :: m in reg ==> reg[m].online
  }

  /** The `NetworkDevice(ip, mac, name)` constructor at time `now`: default
      avatar, online, no unread messages. */
  function NewDevice(ip: string, mac: Mac, name: string, now: real): (d: Device)
    ensures d.ip == ip && d.mac == mac && d.name == name
    ensures d.avatar == Default(name) && d.timestamp == now
    ensures d.online && d.unread == 0
  {
    Device(ip, mac, name, Default(name), now, true, 0)
  }

  /** `check_online`: a device is live while less than `OFFLINE_TIMEOUT`
      seconds have passed since it was last heard. */
  predicate IsLive(d: Device, now: real) {
    now - d.timestamp < OFFLINE_TIMEOUT
  }

  // ---------------------------------------------------------------------
  // get_safe_mac

  /** `get_safe_mac`: the MAC with every `:` replaced by `_`, used as the
      name of the device's record directory. */
  function SafeMac(mac: Mac): (r: string)
    ensures |r| == |mac|
    ensures forall i :: 0 <= i < |mac| ==> r[i] == (if mac[i] == ':' then '_' else mac[i])
    ensures forall i :: 0 <= i < |r| ==> r[i] != ':'
  {
    seq(|mac|, i requires 0 <= i < |mac| => if mac[i] == ':' then '_' else mac[i])
  }

  /** MACs as the program formats them (hex digits and colons) never share
      a record directory. */
  lemma SafeMacInjective(a: Mac, b: Mac)
    requires forall i :: 0 <= i < |a| ==> a[i] != '_'
    requires forall i :: 0 <= i < |b| ==> b[i] != '_'
    requires SafeMac(a) == SafeMac(b)
    ensures a == b
  {
    var sa, sb := SafeMac(a), SafeMac(b);
    assert |a| == |b|;
    forall i | 0 <= i < |a|
      ensures a[i] == b[i]
    {
      assert sa[i] == sb[i];
    }
  }

  // ---------------------------------------------------------------------
  // udp_listener

  /** One received discovery datagram: a parsed announce carrying a `mac`
      and, when present, a `name` and an `ip` key; or anything that made
      `json.loads` or the `mac` lookup raise. */
  datatype Datagram = Announce(mac: Mac, name: Option<string>, ip: Option<string>) | Malformed

  /** An announce with every key the listener reads. */
  predicate Complete(msg: Datagram) {
    msg.Announce? && msg.name.Some? && msg.ip.Some?
  }

  /** The table after `udp_listener` handles one datagram at time `now`.
      Self-announcements and malformed datagrams change nothing. For a known
      MAC the fields are written one at a time, the receiver's clock first
      (the announced timestamp is ignored), then the name, then the ip, and
      a missing key raises and stops the writes where it stands. An unknown
      MAC is inserted as a new device only when both keys are present. */
  function OnAnnounce(reg: Devices, localMac: Mac, msg: Datagram, now: real): (r: Devices)
    ensures msg.Malformed? || msg.mac == localMac ==> r == reg
    ensures msg.Announce? && msg.mac != localMac && msg.mac in reg ==> var was := reg[msg.mac];
      && r.Keys == reg.Keys
      && r[msg.mac].timestamp == now
      && r[msg.mac].name == (if msg.name.Some? then msg.name.value else was.name)
      && r[msg.mac].ip == (if msg.name.Some? && msg.ip.Some? then msg.ip.value else was.ip)
      && r[msg.mac].mac == was.mac && r[msg.mac].avatar == was.avatar
      && r[msg.mac].unread == was.unread && r[msg.mac].online == was.online
    ensures msg.Announce? && msg.mac != localMac && msg.mac !in reg ==>
      && (Complete(msg) ==> r == reg[msg.mac := NewDevice(msg.ip.value, msg.mac, msg.name.value, now)])
      && (!Complete(msg) ==> r == reg)
    ensures forall m :: m in reg && (msg.Malformed? || m != msg.mac) ==> m in r && r[m] == reg[m]
    ensures Valid(reg) ==> Valid(r)
    ensures AllOnline(reg) ==> AllOnline(r)
  {
    match msg
    case Malformed => reg
    case Announce(mac, name, ip) =>
      if mac == localMac then reg
      else if mac in reg then
        var stamped := reg[mac].(timestamp := now);
        var named := if name.Some? then stamped.(name := name.value) else stamped;
        var placed := if name.Some? && ip.Some? then named.(ip := ip.value) else named;
        reg[mac := placed]
      else if name.Some? && ip.Some? then reg[mac := NewDevice(ip.value, mac, name.value, now)]
      else reg
  }

  /** An announce that lacks its `name` still refreshes a known peer's
      timestamp before the lookup raises, keeping the peer alive. */
  lemma IncompleteAnnounceKeepsPeerAlive(reg: Devices, localMac: Mac, mac: Mac, now: real)
    requires mac in reg && mac != localMac
    ensures var r := OnAnnounce(reg, localMac, Announce(mac, None, None), now);
      r == reg[mac := reg[mac].(timestamp := now)] && IsLive(r[mac], now)
  {
  }

  /** Two complete announces from the same peer leave exactly one entry,
      carrying the latest ip, name and time and the avatar and unread count
      it had before. */
  lemma AnnounceTwiceKeepsOneEntry(reg: Devices, localMac: Mac, a1: Datagram, a2: Datagram, t1: real, t2: real)
    requires Complete(a1) && Complete(a2) && a1.mac == a2.mac != localMac
    ensures var r := OnAnnounce(OnAnnounce(reg, localMac, a1, t1), localMac, a2, t2);
      && r.Keys == reg.Keys + {a1.mac}
      && r[a1.mac].ip == a2.ip.value && r[a1.mac].name == a2.name.value && r[a1.mac].timestamp == t2
      && r[a1.mac].avatar == (if a1.mac in reg then reg[a1.mac].avatar else Default(a1.name.value))
      && r[a1.mac].unread == (if a1.mac in reg then reg[a1.mac].unread else 0)
  {
  }

  // ---------------------------------------------------------------------
  // handle_tcp_connection: identity lookup and avatar

  /** The first message of an inbound connection: the peer's MAC and, when
      present, its `name` key; or nothing usable (empty read, or bytes that
      do not parse or lack `mac`). */
  datatype Hello = Hello(mac: Mac, name: Option<string>) | NoHello

  /** The peer's reply to our avatar: an avatar message (its payload decoded,
      or `None` if decoding failed), some other message, or nothing. */
  datatype AvatarReply = AvatarMessage(decoded: Option<Bytes>) | OtherReply | NoReply

  datatype Handshake = Handshake(devices: Devices, peer: Device)

  /** The lookup-or-create step of `handle_tcp_connection`: a known MAC keeps
      its entry untouched (its ip is not refreshed from the connection
      address, nor its timestamp, and `name` is not read); an unknown MAC is
      created with the connection's address and the announced name, and
      without a name the lookup raises (`None`). */
  function LookupOrCreate(reg: Devices, peerIp: string, mac: Mac, name: Option<string>, now: real): (h: Option<Handshake>)
    ensures h.None? <==> mac !in reg && name.None?
    ensures h.Some? ==> h.value.devices.Keys == reg.Keys + {mac}
    ensures h.Some? ==> mac in h.value.devices && h.value.peer == h.value.devices[mac]
    ensures h.Some? && mac in reg ==> h.value.devices == reg
    ensures h.Some? && mac !in reg ==> h.value.peer == NewDevice(peerIp, mac, name.value, now)
    ensures h.Some? ==> forall m :: m in reg ==> h.value.devices[m] == reg[m]
    ensures h.Some? && Valid(reg) ==> Valid(h.value.devices)
  {
    if mac in reg then Some(Handshake(reg, reg[mac]))
    else if name.Some? then
      var d := NewDevice(peerIp, mac, name.value, now);
      Some(Handshake(reg[mac := d], d))
    else None
  }

  /** The avatar the handshake stores for the peer. */
  function AvatarOf(decoded: Option<Bytes>): Avatar {
    match decoded
    case Some(b) => Custom(b)
    case None => Missing
  }

  /** The registry effect of an inbound handshake: nothing when the first
      message is unusable or names an unknown MAC without a name; otherwise
      lookup-or-create, then, if the peer's reply is an avatar message, its
      avatar replaces the stored one. */
  function AcceptHandshake(reg: Devices, peerIp: string, hello: Hello, reply: AvatarReply, now: real): (r: Option<Handshake>)
    ensures r.Some? <==> hello.Hello? && (hello.mac in reg || hello.name.Some?)
    ensures r.Some? ==> var h := LookupOrCreate(reg, peerIp, hello.mac, hello.name, now).value;
      && r.value.devices.Keys == reg.Keys + {hello.mac}
      && r.value.peer == r.value.devices[hello.mac]
      && (forall m :: m in reg && m != hello.mac ==> r.value.devices[m] == reg[m])
      && (reply.AvatarMessage? ==> r.value.peer == h.peer.(avatar := AvatarOf(reply.decoded)))
      && (!reply.AvatarMessage? ==> r.value == h)
    ensures r.Some? && Valid(reg) ==> Valid(r.value.devices)
    ensures r.Some? && AllOnline(reg) ==> AllOnline(r.value.devices)
  {
    match hello
    case NoHello => None
    case Hello(mac, name) =>
      match LookupOrCreate(reg, peerIp, mac, name, now)
      case None => None
      case Some(h) =>
        match reply
        case AvatarMessage(decoded) =>
          var d := h.peer.(avatar := AvatarOf(decoded));
          Some(Handshake(h.devices[mac := d], d))
        case _ => Some(h)
  }

  // ---------------------------------------------------------------------
  // Per-MAC updates: avatar_update, handle_name_change, unread counts

  /** An `avatar_update` message: replaces the avatar of a known MAC only. */
  function OnAvatarUpdate(reg: Devices, mac: Mac, decoded: Option<Bytes>): (r: Devices)
    ensures r.Keys == reg.Keys
    ensures mac in reg ==> r[mac] == reg[mac].(avatar := AvatarOf(decoded))
    ensures forall m :: m in reg && m != mac ==> r[m] == reg[m]
    ensures Valid(reg) ==> Valid(r)
  {
    if mac in reg then reg[mac := reg[mac].(avatar := AvatarOf(decoded))] else reg
  }

  /** `handle_name_change`, with the MAC, old and new name taken from the
      message. The device with that MAC, if known, takes the new name. Then,
      if a chat is open under the old name, the device object that chat
      holds is renamed as well. `chatPeer` is the MAC under which that object
      sits in the table, or `None` when no chat is open under the old name or
      its device is no longer in the table. The two need not be the same
      device: the old name in the message is not checked against the MAC. */
  function OnNameChange(reg: Devices, mac: Mac, newName: string, chatPeer: Option<Mac>): (r: Devices)
    ensures r.Keys == reg.Keys
    ensures mac in reg ==> r[mac] == reg[mac].(name := newName)
    ensures chatPeer.Some? && chatPeer.value in reg ==> r[chatPeer.value] == reg[chatPeer.value].(name := newName)
    ensures forall m :: m in reg && m != mac && chatPeer != Some(m) ==> r[m] == reg[m]
    ensures Valid(reg) ==> Valid(r)
    ensures AllOnline(reg) ==> AllOnline(r)
  {
    var renamed := Rename(reg, mac, newName);
    match chatPeer
    case None => renamed
    case Some(peer) => Rename(renamed, peer, newName)
  }

  /** The device with MAC `mac`, if known, takes the name `newName`. */
  function Rename(reg: Devices, mac: Mac, newName: string): (r: Devices)
    ensures r.Keys == reg.Keys
    ensures mac in reg ==> r[mac] == reg[mac].(name := newName)
    ensures forall m :: m in reg && m != mac ==> r[m] == reg[m]
  {
    if mac in reg then reg[mac := reg[mac].(name := newName)] else reg
  }

  /** A name change from one peer, arriving while a chat with another peer
      is open under the old name in the message, renames both. */
  lemma NameChangeCanRenameAnotherPeer(reg: Devices, mac: Mac, other: Mac, newName: string)
    requires mac in reg && other in reg && mac != other
    ensures var r := OnNameChange(reg, mac, newName, Some(other));
      && r[mac].name == newName && r[other].name == newName
      && (r[other] == reg[other] <==> reg[other].name == newName)
  {
  }

  /** Repeating a name change changes nothing more. */
  lemma NameChangeIdempotent(reg: Devices, mac: Mac, newName: string, chatPeer: Option<Mac>)
    ensures var r := OnNameChange(reg, mac, newName, chatPeer);
      OnNameChange(r, mac, newName, chatPeer) == r
  {
    var r := OnNameChange(reg, mac, newName, chatPeer);
    var r2 := OnNameChange(r, mac, newName, chatPeer);
    assert forall m :: m in r ==> r2[m] == r[m];
  }

  /** An incoming text or completed file: the unread count of the sender
      goes up by one unless its chat is the one being viewed. */
  function OnIncoming(reg: Devices, mac: Mac, viewing: bool): (r: Devices)
    ensures r.Keys == reg.Keys
    ensures mac in reg ==> r[mac].unread == reg[mac].unread + (if viewing then 0 else 1)
    ensures mac in reg ==> r[mac].(unread := reg[mac].unread) == reg[mac]
    ensures forall m :: m in reg && m != mac ==> r[m] == reg[m]
    ensures Valid(reg) ==> Valid(r)
    ensures AllOnline(reg) ==> AllOnline(r)
  {
    if viewing || mac !in reg then reg
    else reg[mac := reg[mac].(unread := reg[mac].unread + 1)]
  }

  /** Opening a device's chat resets its unread count. */
  function OnChatOpened(reg: Devices, mac: Mac): (r: Devices)
    ensures r.Keys == reg.Keys
    ensures mac in reg ==> r[mac].unread == 0
    ensures mac in reg ==> r[mac].(unread := reg[mac].unread) == reg[mac]
    ensures forall m :: m in reg && m != mac ==> r[m] == reg[m]
    ensures Valid(reg) ==> Valid(r)
    ensures AllOnline(reg) ==> AllOnline(r)
  {
    if mac in reg then reg[mac := reg[mac].(unread := 0)] else reg
  }

  /** Messages arriving while the chat is not viewed add up; opening the
      chat clears them all. */
  lemma UnreadCountsMessages(reg: Devices, mac: Mac, n: nat)
    requires mac in reg
    ensures var r := Repeat(reg, mac, n);
      && mac in r && r[mac].unread == reg[mac].unread + n
      && OnChatOpened(r, mac)[mac].unread == 0
  {
    UnreadAddsUp(reg, mac, n);
  }

  lemma {:induction false} UnreadAddsUp(reg: Devices, mac: Mac, n: nat)
    requires mac in reg
    ensures mac in Repeat(reg, mac, n) && Repeat(reg, mac, n)[mac].unread == reg[mac].unread + n
  {
    if n > 0 {
      UnreadAddsUp(reg, mac, n - 1);
    }
  }

  /** `n` unviewed incoming messages from `mac`. */
  function Repeat(reg: Devices, mac: Mac, n: nat): (r: Devices)
    ensures r.Keys == reg.Keys
  {
    if n == 0 then reg else OnIncoming(Repeat(reg, mac, n - 1), mac, false)
  }

  // ---------------------------------------------------------------------
  // timeout_check_loop

  datatype Sweep = Sweep(devices: Devices, removed: set<Mac>)

  /** One pass of `timeout_check_loop` at time `now`: `check_online` is
      evaluated for every device, the stale ones are removed and their MACs
      reported, and the survivors are flagged online. */
  function SweepStale(reg: Devices, now: real): (s: Sweep)
    ensures s.removed == set m | m in reg && now - reg[m].timestamp >= OFFLINE_TIMEOUT
    ensures s.devices.Keys == reg.Keys - s.removed
    ensures forall m :: m in s.devices <==> m in reg && now - reg[m].timestamp < OFFLINE_TIMEOUT
    ensures forall m :: m in s.devices ==> s.devices[m] == reg[m].(online := true)
    ensures Valid(reg) ==> Valid(s.devices)
    ensures AllOnline(s.devices)
  {
    var removed := set m | m in reg && !IsLive(reg[m], now);
    Sweep(map m | m in reg && IsLive(reg[m], now) :: reg[m].(online := true), removed)
  }

  /** For a table whose devices are all flagged online (as every operation
      here keeps it), the sweep changes no field of a surviving device. */
  lemma SweepKeepsSurvivorsUnchanged(reg: Devices, now: real)
    requires AllOnline(reg)
    ensures forall m :: m in SweepStale(reg, now).devices ==> SweepStale(reg, now).devices[m] == reg[m]
  {
  }

  /** A second sweep at the same time removes nothing more. */
  lemma SweepIdempotent(reg: Devices, now: real)
    ensures var s := SweepStale(reg, now);
      SweepStale(s.devices, now) == Sweep(s.devices, {})
  {
    var s := SweepStale(reg, now);
    var s2 := SweepStale(s.devices, now);
    assert s2.devices == s.devices;
  }

  /** A peer heard at `t` (known already, or announced with every key)
      survives every sweep before `t + OFFLINE_TIMEOUT`
      and is removed by the first sweep at or after it. */
  lemma AnnouncedPeerExpires(reg: Devices, localMac: Mac, a: Datagram, t: real, now: real)
    requires a.Announce? && a.mac != localMac && (a.mac in reg || Complete(a))
    ensures var r := OnAnnounce(reg, localMac, a, t);
      && (now < t + OFFLINE_TIMEOUT ==> a.mac in SweepStale(r, now).devices)
      && (now >= t + OFFLINE_TIMEOUT ==> a.mac in SweepStale(r, now).removed && a.mac !in SweepStale(r, now).devices)
  {
  }
}

=== FILE: strings.dfy ===
/** The few pieces of Python string behaviour the program relies on:
    `str(n)` and `int(s)` on decimal digits, `str.isdigit`, `startswith`,
    `endswith`, substring search, `lower()`, `split(' (')[0]` and the
    ordering `sorted` uses on names. Characters outside ASCII are treated
    as having no case and no digit value. */
module Strings {
  import opened Common

  // ---------------------------------------------------------------------
  // Decimal digits

  predicate IsAsciiDigit(c: char) {
    '0' <= c <= '9'
  }

  /** `s.isdigit()` restricted to ASCII digits: false on the empty string. */
  predicate IsDigits(s: string) {
    |s| > 0 && forall i :: 0 <= i < |s| ==> IsAsciiDigit(s[i])
  }

  function DigitChar(d: nat): (c: char)
    requires d < 10
    ensures IsAsciiDigit(c)
  {
    ('0' as int + d) as char
  }

  function DigitValue(c: char): (d: nat)
    requires IsAsciiDigit(c)
    ensures d < 10
  {
    c as int - '0' as int
  }

  /** `str(n)` for a non-negative integer: decimal, no leading zeros. */
  function NatToString(n: nat): (s: string)
    ensures IsDigits(s)
    ensures n < 10 <==> |s| == 1
    decreases n
  {
    if n < 10 then [DigitChar(n)]
    else NatToString(n / 10) + [DigitChar(n % 10)]
  }

  /** `int(s)` for a string of ASCII digits (leading zeros allowed). */
  function ParseDecimal(s: string): nat
    requires IsDigits(s)
    decreases |s|
  {
    if |s| == 1 then DigitValue(s[0])
    else ParseDecimal(s[..|s| - 1]) * 10 + DigitValue(s[|s| - 1])
  }

  /** `int(str(n)) == n`: printing a number and reading it back is lossless. */
  lemma {:induction false} ParseNatToString(n: nat)
    ensures ParseDecimal(NatToString(n)) == n
    decreases n
  {
    if n >= 10 {
      var s := NatToString(n);
      var prefix := NatToString(n / 10);
      assert s == prefix + [DigitChar(n % 10)];
      assert s[..|s| - 1] == prefix;
      ParseNatToString(n / 10);
    }
  }

  /** Distinct numbers print as distinct strings. */
  lemma NatToStringInjective(a: nat, b: nat)
    requires NatToString(a) == NatToString(b)
    ensures a == b
  {
    ParseNatToString(a);
    ParseNatToString(b);
  }

  /** `str(v)` for any integer: a minus sign before the digits of a
      negative number. */
  function IntToString(v: int): (s: string)
    ensures v >= 0 ==> s == NatToString(v)
    ensures v < 0 ==> |s| > 1 && s[0] == '-' && s[1..] == NatToString(-v)
  {
    if v < 0 then "-" + NatToString(-v) else NatToString(v)
  }

  // ---------------------------------------------------------------------
  // `int(s)` on a string, base 10

  /** The characters `int()` strips around its argument (the ASCII ones:
      tab through carriage return, the four separators 0x1c-0x1f, space). */
  predicate IsSpace(c: char) {
    c == ' ' || ('\t' <= c <= '\r') || (28 <= c as int <= 31)
  }

  /** The index of the first character at or after `i` that is not blank. */
  function SkipBlanks(s: string, i: nat): (r: nat)
    requires i <= |s|
    ensures i <= r <= |s|
    decreases |s| - i
  {
    if i < |s| && IsSpace(s[i]) then SkipBlanks(s, i + 1) else i
  }

  /** The end of `s[lo..j]` once its trailing blanks are cut. */
  function CutBlanks(s: string, lo: nat, j: nat): (r: nat)
    requires lo <= j <= |s|
    ensures lo <= r <= j
    decreases j
  {
    if j > lo && IsSpace(s[j - 1]) then CutBlanks(s, lo, j - 1) else j
  }

  /** Digits, possibly grouped by single underscores between digits, as
      `int()` accepts them: `1_000` but not `_1`, `1_` or `1__0`. */
  predicate Grouped(u: string) {
    |u| > 0 && IsAsciiDigit(u[0]) && forall k :: 0 <= k < |u| ==> GroupedAt(u, k)
  }

  /** Position `k` of `u` holds a digit, or an underscore before one. */
  predicate GroupedAt(u: string, k: nat)
    requires k < |u|
  {
    IsAsciiDigit(u[k]) || (u[k] == '_' && k + 1 < |u| && IsAsciiDigit(u[k + 1]))
  }

  function DropUnderscores(u: string): (r: string)
    ensures |u| > 0 && u[0] != '_' ==> |r| > 0 && r[0] == u[0]
    ensures (forall k :: 0 <= k < |u| ==> u[k] != '_') ==> r == u
    decreases |u|
  {
    if |u| == 0 then []
    else (if u[0] == '_' then [] else [u[0]]) + DropUnderscores(u[1..])
  }

  lemma GroupedDigits(u: string)
    requires forall k :: 0 <= k < |u| ==> IsAsciiDigit(u[k]) || u[k] == '_'
    ensures forall i :: 0 <= i < |DropUnderscores(u)| ==> IsAsciiDigit(DropUnderscores(u)[i])
    decreases |u|
  {
    if |u| > 0 {
      assert IsAsciiDigit(u[0]) || u[0] == '_';
      assert forall k :: 0 <= k < |u[1..]| ==> u[1..][k] == u[k + 1];
      GroupedDigits(u[1..]);
    }
  }

  /** The value of grouped digits, or `None`. */
  function GroupedValue(u: string): (r: Option<nat>)
    ensures r.Some? <==> Grouped(u)
  {
    if Grouped(u) then
      assert u[0] != '_';
      forall k | 0 <= k < |u|
        ensures IsAsciiDigit(u[k]) || u[k] == '_'
      {
        assert GroupedAt(u, k);
      }
      GroupedDigits(u);
      var r := DropUnderscores(u);
      assert |r| > 0 && IsDigits(r);
      Some(ParseDecimal(r))
    else None
  }

  /** `s.strip()` with the characters `int()` ignores. */
  function Trim(s: string): string {
    var from := SkipBlanks(s, 0);
    s[from..CutBlanks(s, from, |s|)]
  }

  lemma DigitsNeedNoStripping(s: string)
    requires IsDigits(s)
    ensures Trim(s) == s && Grouped(s) && DropUnderscores(s) == s
  {
    assert !IsSpace(s[0]) && !IsSpace(s[|s| - 1]);
    TrimKeepsUnpadded(s);
  }

  lemma BlankTrimsToEmpty(s: string)
    requires forall k :: 0 <= k < |s| ==> IsSpace(s[k])
    ensures Trim(s) == []
  {
    SkipAllBlanks(s, 0);
  }

  lemma {:induction false} SkipAllBlanks(s: string, i: nat)
    requires i <= |s| && forall k :: i <= k < |s| ==> IsSpace(s[k])
    ensures SkipBlanks(s, i) == |s|
    decreases |s| - i
  {
    if i < |s| {
      SkipAllBlanks(s, i + 1);
    }
  }

  /** `int(s)`: surrounding white space, an optional sign, then grouped
      digits; anything else raises `ValueError` (`None`). */
  function PyInt(s: string): Option<int> {
    SignedValue(Trim(s))
  }

  /** An optional sign followed by grouped digits. */
  function SignedValue(t: string): Option<int> {
    if |t| > 0 && (t[0] == '+' || t[0] == '-') then
      match GroupedValue(t[1..])
      case None => None
      case Some(v) => Some(if t[0] == '-' then -(v as int) else v)
    else
      GroupedValue(t)
  }

  lemma DigitsParseAsThemselves(s: string)
    ensures IsDigits(s) ==> Trim(s) == s && !(s[0] == '+' || s[0] == '-') && GroupedValue(s) == Some(ParseDecimal(s))
  {
    if IsDigits(s) {
      DigitsNeedNoStripping(s);
    }
  }

  /** On what `isdigit()` accepts, `int()` is the plain decimal value. */
  lemma PyIntOfDigits(s: string)
    requires IsDigits(s)
    ensures PyInt(s) == Some(ParseDecimal(s))
  {
    DigitsParseAsThemselves(s);
  }

  lemma TrimKeepsUnpadded(s: string)
    requires |s| > 0 && !IsSpace(s[0]) && !IsSpace(s[|s| - 1])
    ensures Trim(s) == s
  {
    assert SkipBlanks(s, 0) == 0;
    assert CutBlanks(s, 0, |s|) == |s|;
  }

  lemma SignedDigits(t: string)
    requires |t| > 1 && (t[0] == '+' || t[0] == '-') && IsDigits(t[1..])
    ensures SignedValue(t) == Some(if t[0] == '-' then -(ParseDecimal(t[1..]) as int) else ParseDecimal(t[1..]))
  {
    DigitsParseAsThemselves(t[1..]);
  }

  /** `int()` accepts a sign before the digits, which `isdigit()` rejects. */
  lemma PyIntSigned(s: string)
    requires |s| > 1 && (s[0] == '+' || s[0] == '-') && IsDigits(s[1..])
    ensures !IsDigits(s)
    ensures PyInt(s) == Some(if s[0] == '-' then -(ParseDecimal(s[1..]) as int) else ParseDecimal(s[1..]))
  {
    assert !IsAsciiDigit(s[0]);
    assert s[|s| - 1] == s[1..][|s| - 2];
    TrimKeepsUnpadded(s);
    SignedDigits(s);
  }

  /** `int(str(v)) == v` for every integer. */
  lemma PyIntOfIntToString(v: int)
    ensures PyInt(IntToString(v)) == Some(v)
  {
    if v >= 0 {
      PyIntOfNatString(v);
    } else {
      PyIntOfNegative(v);
    }
  }

  lemma PyIntOfNegative(v: int)
    requires v < 0
    ensures PyInt(IntToString(v)) == Some(v)
  {
    var s := IntToString(v);
    var d := ParseDecimal(s[1..]);
    assert d == -v by {
      ParseNatToString(-v);
    }
    assert PyInt(s) == Some(-(d as int)) by {
      PyIntSigned(s);
    }
  }

  lemma PyIntOfNatString(n: nat)
    ensures PyInt(NatToString(n)) == Some(n)
  {
    assert ParseDecimal(NatToString(n)) == n by {
      ParseNatToString(n);
    }
    PyIntOfDigits(NatToString(n));
  }

  /** `int()` skips leading blanks, which `isdigit()` rejects. */
  lemma PyIntLeadingBlank(d: string)
    requires IsDigits(d)
    ensures !IsDigits(" " + d)
    ensures PyInt(" " + d) == Some(ParseDecimal(d))
  {
    var s := " " + d;
    assert !IsAsciiDigit(s[0]);
    assert s[1..] == d;
    assert !IsSpace(d[0]) && !IsSpace(d[|d| - 1]);
    assert SkipBlanks(s, 1) == 1;
    assert SkipBlanks(s, 0) == 1;
    assert s[|s| - 1] == d[|d| - 1];
    assert CutBlanks(s, 1, |s|) == |s|;
    assert Trim(s) == d;
    assert !(d[0] == '+' || d[0] == '-');
    DigitsParseAsThemselves(d);
  }

  /** `int()` accepts underscores between digits, which `isdigit()` rejects. */
  lemma PyIntUnderscore()
    ensures !IsDigits("1_0")
    ensures PyInt("1_0") == Some(10)
  {
    assert !IsAsciiDigit("1_0"[1]);
    assert !IsSpace("1_0"[0]) && !IsSpace("1_0"[2]);
    assert Trim("1_0") == "1_0";
    assert GroupedAt("1_0", 0) && GroupedAt("1_0", 1) && GroupedAt("1_0", 2);
    assert DropUnderscores("1_0") == "10";
    assert ParseDecimal("10") == 10;
  }

  /** Blank strings do not parse. */
  lemma BlankIsNotANumber(s: string)
    requires forall k :: 0 <= k < |s| ==> IsSpace(s[k])
    ensures PyInt(s).None?
  {
    BlankTrimsToEmpty(s);
    assert !IsDigits(s) by {
      if |s| > 0 {
        assert IsSpace(s[0]);
      }
    }
    assert GroupedValue(Trim(s)).None?;
  }

  // ---------------------------------------------------------------------
  // Prefixes, suffixes and substrings

  predicate StartsWith(s: string, prefix: string) {
    |prefix| <= |s| && s[..|prefix|] == prefix
  }

  predicate EndsWith(s: string, suffix: string) {
    |suffix| <= |s| && s[|s| - |suffix|..] == suffix
  }

  /** Python's `needle in hay` on strings. */
  predicate Contains(hay: string, needle: string)
    decreases |hay|
  {
    StartsWith(hay, needle) || (|hay| > 0 && Contains(hay[1..], needle))
  }

  /** `needle` occurs in `hay` starting at position `k`. */
  predicate OccursAt(hay: string, needle: string, k: int) {
    0 <= k <= |hay| - |needle| && hay[k..k + |needle|] == needle
  }

  /** `needle in hay` holds exactly when `needle` occurs at some position. */
  lemma {:induction false} ContainsOccurs(hay: string, needle: string)
    ensures Contains(hay, needle) <==> exists k :: OccursAt(hay, needle, k)
    decreases |hay|
  {
    if StartsWith(hay, needle) {
      assert OccursAt(hay, needle, 0);
    } else if |hay| > 0 {
      ContainsOccurs(hay[1..], needle);
      if Contains(hay[1..], needle) {
        var k :| OccursAt(hay[1..], needle, k);
        assert hay[1..][k..k + |needle|] == hay[k + 1..k + 1 + |needle|];
        assert OccursAt(hay, needle, k + 1);
      }
      if k :| OccursAt(hay, needle, k) {
        assert k != 0;
        assert hay[1..][k - 1..k - 1 + |needle|] == hay[k..k + |needle|];
        assert OccursAt(hay[1..], needle, k - 1);
      }
    }
  }

  // ---------------------------------------------------------------------
  // Case

  function LowerChar(c: char): char {
    if 'A' <= c <= 'Z' then (c as int + 32) as char else c
  }

  /** `s.lower()` on ASCII letters: no capital is left, a string without
      capitals is unchanged, and every other character keeps its place. */
  function Lower(s: string): (r: string)
    ensures |r| == |s|
    ensures forall i :: 0 <= i < |r| ==> !('A' <= r[i] <= 'Z')
    ensures (forall i :: 0 <= i < |s| ==> !('A' <= s[i] <= 'Z')) ==> r == s
    ensures forall i :: 0 <= i < |s| ==> r[i] == s[i] || ('A' <= s[i] <= 'Z' && r[i] as int == s[i] as int + 32)
  {
    seq(|s|, i requires 0 <= i < |s| => LowerChar(s[i]))
  }

  // ---------------------------------------------------------------------
  // Ordering of names: Python compares strings code point by code point,
  // and a proper prefix sorts first.

  predicate LexLe(a: string, b: string)
    decreases |a|
  {
    |a| == 0 || (|b| > 0 && (a[0] < b[0] || (a[0] == b[0] && LexLe(a[1..], b[1..]))))
  }

  lemma {:induction false} LexLeTotal(a: string, b: string)
    ensures LexLe(a, b) || LexLe(b, a)
    decreases |a|
  {
    if |a| > 0 && |b| > 0 && a[0] == b[0] {
      LexLeTotal(a[1..], b[1..]);
    }
  }

  lemma {:induction false} LexLeTransitive(a: string, b: string, c: string)
    requires LexLe(a, b) && LexLe(b, c)
    ensures LexLe(a, c)
    decreases |a|
  {
    if |a| > 0 && a[0] == b[0] && b[0] == c[0] {
      LexLeTransitive(a[1..], b[1..], c[1..]);
    }
  }

  // ---------------------------------------------------------------------
  // `text.split(' (')[0]`

  /** The separator `" ("` starts at position `i` of `s`. */
  predicate SepAt(s: string, i: int) {
    0 <= i && i + 1 < |s| && s[i] == ' ' && s[i + 1] == '('
  }

  /** `s` contains no `" ("`. */
  predicate NoSep(s: string) {
    forall i :: 0 <= i < |s| ==> !SepAt(s, i)
  }

  /** `s.split(' (')[0]`: everything before the first `" ("`, or all of `s`. */
  function FirstPart(s: string): (r: string)
    ensures |r| <= |s| && r == s[..|r|]
    ensures forall i :: 0 <= i < |r| ==> !SepAt(s, i)
    ensures |r| == |s| || SepAt(s, |r|)
    decreases |s|
  {
    if |s| == 0 || SepAt(s, 0) then []
    else
      var rest := FirstPart(s[1..]);
      assert forall i :: 1 <= i < |s| ==> (SepAt(s, i) <==> SepAt(s[1..], i - 1));
      [s[0]] + rest
  }

  /** Splitting `a + b` where `b` starts with the separator and `a` has none
      gives back `a`. */
  lemma FirstPartOfJoin(a: string, b: string)
    requires NoSep(a)
    requires StartsWith(b, " (")
    ensures FirstPart(a + b) == a
  {
    var s := a + b;
    var r := FirstPart(s);
    assert SepAt(s, |a|);
    forall i | 0 <= i < |a|
      ensures !SepAt(s, i)
    {
      if i + 1 < |a| {
        assert !SepAt(a, i);
      } else {
        assert s[i + 1] == b[0] == ' ';
      }
    }
  }

  /** A string without the separator splits to itself. */
  lemma FirstPartNoSep(a: string)
    requires NoSep(a)
    ensures FirstPart(a) == a
  {
  }
}

=== FILE: transfer.dfy ===
/** The file-transfer protocol over an established session, as sequence
    logic: the sender's readiness wait and chunking (`send_file`,
    DCChatting.py lines 943-1043) and the receiver's assembly loop
    (`handle_file_reception`, lines 1045-1119). Each socket `recv` becomes
    one element of an input sequence, classified by what `pickle.loads`
    makes of it; clock readings travel with the input. */
module Transfer {
  import opened Common

  /** The messages of the transfer protocol. */
  datatype Frame =
    | Metadata(filename: string, size: int)
    | Chunk(content: Bytes)
    | FileEnd
    | Ready
    | FileError(message: string)

  /** The reply bytes the sender waits for: `b'READY'`. */
  const READY: Bytes := [0x52, 0x45, 0x41, 0x44, 0x59]

  /** The sender's retry budget and the receiver's deadline. */
  const READY_RETRIES: nat := 3
  const READY_TIMEOUT: real := 5.0
  const RECEIVE_TIMEOUT: real := 30.0

  // ---------------------------------------------------------------------
  // Chunking

  /** The bytes of a list of chunks, in order. */
  function Flatten(chunks: seq<Bytes>): Bytes {
    if |chunks| == 0 then [] else chunks[0] + Flatten(chunks[1..])
  }

  /** `data` cut into `BUFFER_SIZE` pieces, as the sender's slicing loop
      produces them. */
  function ChunksOf(data: Bytes): (r: seq<Bytes>)
    ensures Flatten(r) == data
    ensures forall i :: 0 <= i < |r| ==> 0 < |r[i]| <= BUFFER_SIZE
    ensures forall i :: 0 <= i < |r| - 1 ==> |r[i]| == BUFFER_SIZE
    ensures |r| == (|data| + BUFFER_SIZE - 1) / BUFFER_SIZE
    ensures |data| >= BUFFER_SIZE ==> r[0] == data[..BUFFER_SIZE]
    ensures 0 < |data| <= BUFFER_SIZE ==> r == [data]
    decreases |data|
  {
    if |data| == 0 then []
    else if |data| <= BUFFER_SIZE then
      assert Flatten([data]) == data + Flatten([]);
      [data]
    else
      var rest := ChunksOf(data[BUFFER_SIZE..]);
      var r := [data[..BUFFER_SIZE]] + rest;
      assert r[1..] == rest;
      assert data[..BUFFER_SIZE] + data[BUFFER_SIZE..] == data;
      r
  }

  /** The sender's loop: slice `file_data[offset:offset+BUFFER_SIZE]` and
      advance by `BUFFER_SIZE` while `offset < len(file_data)`. */
  method SplitIntoChunks(data: Bytes) returns (chunks: seq<Bytes>)
    ensures chunks == ChunksOf(data)
    ensures Flatten(chunks) == data
  {
    var offset := 0;
    chunks := [];
    assert data[offset..] == data;
    while offset < |data|
      invariant 0 <= offset
      invariant offset < |data| ==> chunks + ChunksOf(data[offset..]) == ChunksOf(data)
      invariant offset >= |data| ==> chunks == ChunksOf(data)
      decreases |data| - offset
    {
      var end := if offset + BUFFER_SIZE <= |data| then offset + BUFFER_SIZE else |data|;
      ChunkLoopStep(data, chunks, offset, end);
      chunks := chunks + [data[offset..end]];
      offset := offset + BUFFER_SIZE;
    }
  }

  /** Cutting the rest of the data from `offset` yields the slice up to
      `end` and then the cuts of what follows. */
  lemma ChunksOfStep(data: Bytes, offset: nat, end: nat)
    requires offset < |data|
    requires end == if offset + BUFFER_SIZE <= |data| then offset + BUFFER_SIZE else |data|
    ensures ChunksOf(data[offset..]) ==
      [data[offset..end]] + (if end < |data| then ChunksOf(data[end..]) else [])
  {
    var rest := data[offset..];
    if |rest| > BUFFER_SIZE {
      assert rest[..BUFFER_SIZE] == data[offset..end];
      assert rest[BUFFER_SIZE..] == data[end..];
    } else {
      assert rest == data[offset..end];
    }
  }

  /** One turn of the sender's loop keeps the chunks sent so far plus the
      cuts of the rest equal to the cuts of the whole. */
  lemma ChunkLoopStep(data: Bytes, chunks: seq<Bytes>, offset: nat, end: nat)
    requires offset < |data|
    requires end == if offset + BUFFER_SIZE <= |data| then offset + BUFFER_SIZE else |data|
    requires chunks + ChunksOf(data[offset..]) == ChunksOf(data)
    ensures end < |data| ==> (chunks + [data[offset..end]]) + ChunksOf(data[end..]) == ChunksOf(data)
    ensures end == |data| ==> chunks + [data[offset..end]] == ChunksOf(data)
  {
    var piece := data[offset..end];
    var tail := if end < |data| then ChunksOf(data[end..]) else [];
    ChunksOfStep(data, offset, end);
    Regroup(chunks, piece, tail, ChunksOf(data));
  }

  /** Moving one element across a concatenation. */
  lemma Regroup<T>(a: seq<T>, x: T, t: seq<T>, w: seq<T>)
    requires a + ([x] + t) == w
    ensures (a + [x]) + t == w
    ensures t == [] ==> a + [x] == w
  {
    assert a + ([x] + t) == (a + [x]) + t;
  }

  /** The frames that follow a confirmed readiness: one `Chunk` per piece,
      then one `FileEnd`. */
  function DataFrames(data: Bytes): (r: seq<Frame>)
    ensures |r| == |ChunksOf(data)| + 1
    ensures r[|r| - 1] == FileEnd
    ensures forall i :: 0 <= i < |r| - 1 ==> r[i] == Chunk(ChunksOf(data)[i])
  {
    var chunks := ChunksOf(data);
    seq(|chunks|, i requires 0 <= i < |chunks| => Chunk(chunks[i])) + [FileEnd]
  }

  /** Exactly one `FileEnd`, and it comes last. */
  lemma DataFramesEndOnce(data: Bytes)
    ensures forall i :: 0 <= i < |DataFrames(data)| ==> (DataFrames(data)[i] == FileEnd <==> i == |DataFrames(data)| - 1)
  {
  }

  // ---------------------------------------------------------------------
  // Readiness wait

  /** What one `recv` with a 5-second timeout gives while waiting for
      `READY`: bytes, a timeout, or any other error. */
  datatype Response = Data(bytes: Bytes) | TimedOut | RecvFailed

  /** The response to attempt `k`; a peer that sends nothing times out. */
  function ResponseAt(responses: seq<Response>, k: nat): Response {
    if k < |responses| then responses[k] else TimedOut
  }

  /** Attempt `k` neither succeeded nor stopped the wait. */
  predicate KeepsWaiting(responses: seq<Response>, k: nat) {
    var r := ResponseAt(responses, k);
    r.TimedOut? || (r.Data? && r.bytes != READY)
  }

  datatype Readiness = Readiness(ready: bool, attempts: nat, resends: nat)

  function CountTimeouts(responses: seq<Response>, from: nat, to: nat): nat
    decreases if to > from then to - from else 0
  {
    if from >= to then 0
    else (if ResponseAt(responses, from).TimedOut? then 1 else 0) + CountTimeouts(responses, from + 1, to)
  }

  /** The `for attempt in range(retries)` loop from attempt `k` on. */
  function AwaitFrom(responses: seq<Response>, k: nat): (r: Readiness)
    requires k <= READY_RETRIES
    ensures k <= r.attempts <= READY_RETRIES
    ensures r.resends == CountTimeouts(responses, k, r.attempts)
    ensures r.ready <==> r.attempts > k && ResponseAt(responses, r.attempts - 1) == Data(READY)
    ensures forall j :: k <= j < r.attempts - 1 ==> KeepsWaiting(responses, j)
    ensures r.attempts < READY_RETRIES ==> r.attempts > k && !KeepsWaiting(responses, r.attempts - 1)
    decreases READY_RETRIES - k
  {
    if k == READY_RETRIES then Readiness(false, k, 0)
    else
      match ResponseAt(responses, k)
      case Data(b) =>
        if b == READY then Readiness(true, k + 1, 0) else AwaitFrom(responses, k + 1)
      case TimedOut =>
        var r := AwaitFrom(responses, k + 1);
        r.(resends := r.resends + 1)
      case RecvFailed => Readiness(false, k + 1, 0)
  }

  /** The whole wait: at most three attempts, a resend of the metadata after
      each timeout, success only on exactly `READY`, and an early stop on
      any other receive error. */
  function AwaitReady(responses: seq<Response>): (r: Readiness)
    ensures r.attempts <= READY_RETRIES && r.resends <= r.attempts
    ensures r.resends == CountTimeouts(responses, 0, r.attempts)
    ensures r.ready <==> exists k :: (0 <= k < READY_RETRIES && ResponseAt(responses, k) == Data(READY) &&
      forall j :: 0 <= j < k ==> KeepsWaiting(responses, j))
    ensures forall j :: 0 <= j < r.attempts - 1 ==> KeepsWaiting(responses, j)
    ensures r.attempts < READY_RETRIES ==> r.attempts > 0 && !KeepsWaiting(responses, r.attempts - 1)
  {
    var r := AwaitFrom(responses, 0);
    TimeoutsAtMostAttempts(responses, 0, r.attempts);
    ReadyOnlyOnFirstReady(responses, r);
    r
  }

  lemma ReadyOnlyOnFirstReady(responses: seq<Response>, r: Readiness)
    requires r == AwaitFrom(responses, 0)
    ensures r.ready <==> exists k :: (0 <= k < READY_RETRIES && ResponseAt(responses, k) == Data(READY) &&
      forall j :: 0 <= j < k ==> KeepsWaiting(responses, j))
  {
    if r.ready {
      assert ResponseAt(responses, r.attempts - 1) == Data(READY);
    } else {
      forall k | 0 <= k < READY_RETRIES && ResponseAt(responses, k) == Data(READY)
        ensures exists j :: 0 <= j < k && !KeepsWaiting(responses, j)
      {
        assert !KeepsWaiting(responses, k);
        assert r.attempts <= k;
        assert r.attempts < READY_RETRIES;
      }
    }
  }

  lemma {:induction false} TimeoutsAtMostAttempts(responses: seq<Response>, from: nat, to: nat)
    requires from <= to
    ensures CountTimeouts(responses, from, to) <= to - from
    decreases (to as int) - (from as int)
  {
    if from < to {
      TimeoutsAtMostAttempts(responses, from + 1, to);
    }
  }

  // ---------------------------------------------------------------------
  // The sender

  datatype SendResult = TooLarge | NotReady(frames: seq<Frame>) | Sent(frames: seq<Frame>)

  /** The frames `send_file` writes for a file named `filename` with
      contents `data`, given the responses to its readiness wait. Files
      above `MAX_RECORD_FILE_SIZE` are refused before anything is sent. */
  function SendFile(filename: string, data: Bytes, responses: seq<Response>): (r: SendResult)
    ensures r.TooLarge? <==> |data| > MAX_RECORD_FILE_SIZE
    ensures !r.TooLarge? ==> |r.frames| > 0 && r.frames[0] == Metadata(filename, |data|)
    ensures r.Sent? <==> !r.TooLarge? && AwaitReady(responses).ready
    ensures r.NotReady? ==> forall i :: 0 <= i < |r.frames| ==> r.frames[i] == Metadata(filename, |data|)
    ensures r.NotReady? ==> |r.frames| == 1 + AwaitReady(responses).resends
    ensures r.Sent? ==> var n := 1 + AwaitReady(responses).resends;
      && |r.frames| == n + |DataFrames(data)|
      && (forall i :: 0 <= i < n ==> r.frames[i] == Metadata(filename, |data|))
      && r.frames[n..] == DataFrames(data)
  {
    if |data| > MAX_RECORD_FILE_SIZE then TooLarge
    else
      var w := AwaitReady(responses);
      var meta := seq(1 + w.resends, _ => Metadata(filename, |data|));
      if w.ready then Sent(meta + DataFrames(data)) else NotReady(meta)
  }

  // ---------------------------------------------------------------------
  // The receiver

  /** What one `recv` during reception turns out to be: the `file_end`
      message, a `file_chunk` message, any other message, bytes that
      `pickle.loads` (or the `type` lookup) rejects, an empty read, or a
      `recv` that raises: a reset connection, or the 10-second timeout of a
      socket this side opened (`on_device_select` sets it). */
  datatype Received = FileEndMsg | ChunkMsg(content: Bytes) | OtherMsg | Garbage(raw: Bytes) | Closed | RecvRaised

  /** One loop iteration's input: the clock read at the top of the
      iteration, then what `recv` returned. */
  datatype Step = Step(clock: real, got: Received)

  datatype ReceiveError = Timeout | ConnectionLost | RecvError | SizeMismatch(expected: int, got: nat)

  /** `Saved`: the data passed the size check and is stored. `Failed`: the
      reception raised. `Blocked`: the input ran out while the loop still
      wanted more and the sender sent nothing further: on a socket without a
      timeout `recv` waits for ever, and on one with a timeout the next
      input is `RecvRaised` instead. `consumed` counts the
      inputs the reception took from the stream. */
  datatype Reception = Saved(data: Bytes, consumed: nat) | Failed(error: ReceiveError, consumed: nat) | Blocked(sofar: Bytes)

  /** The bytes an input adds to the file: chunk contents, and unparsed
      input taken raw. */
  function Contribution(r: Received): Bytes {
    match r
    case ChunkMsg(c) => c
    case Garbage(raw) => raw
    case _ => []
  }

  function Payload(steps: seq<Step>): Bytes {
    if |steps| == 0 then [] else Contribution(steps[0].got) + Payload(steps[1..])
  }

  /** The size check after the loop. */
  function Finish(acc: Bytes, size: int, used: nat): (r: Reception)
    ensures r.Saved? <==> |acc| == size
    ensures r.Saved? ==> r.data == acc && r.consumed == used
    ensures r.Failed? ==> r.error == SizeMismatch(size, |acc|) && r.consumed == used
  {
    if |acc| == size then Saved(acc, used) else Failed(SizeMismatch(size, |acc|), used)
  }

  /** Input `s` lets the loop go round again: read within the time limit,
      not an empty read, not a raising `recv`, not `file_end`. */
  predicate Continues(start: real, s: Step) {
    s.clock - start <= RECEIVE_TIMEOUT && !s.got.Closed? && !s.got.RecvRaised? && !s.got.FileEndMsg?
  }

  /** What the receiver holds after inputs `i` up to `j`, starting from `acc`. */
  function Gathered(steps: seq<Step>, i: nat, j: nat, acc: Bytes): Bytes
    requires i <= j <= |steps|
  {
    acc + Payload(steps[i..j])
  }

  /** Starting at input `i` with `acc`, the loop went round for every input
      before `j`: each was entered short of `size` and let the loop go on. */
  predicate RanThrough(size: int, start: real, steps: seq<Step>, i: nat, acc: Bytes, j: nat)
    requires i <= j <= |steps|
  {
    forall k :: i <= k < j ==> Continues(start, steps[k]) && |Gathered(steps, i, k, acc)| < size
  }

  /** The loop reaches the top of iteration `j`: it ran through the inputs
      before it and still holds fewer than `size` bytes. */
  predicate Reaches(size: int, start: real, steps: seq<Step>, i: nat, acc: Bytes, j: nat)
    requires i <= j <= |steps|
  {
    RanThrough(size, start, steps, i, acc, j) && |Gathered(steps, i, j, acc)| < size
  }

  /** Going round once on input `i` moves the start of a run to `i + 1`. */
  lemma LiftRun(size: int, start: real, steps: seq<Step>, i: nat, acc: Bytes, j: int)
    requires i < |steps| && Continues(start, steps[i]) && |acc| < size
    ensures i < j <= |steps| ==>
      && Gathered(steps, i, j, acc) == Gathered(steps, i + 1, j, acc + Contribution(steps[i].got))
      && (RanThrough(size, start, steps, i, acc, j) <==> RanThrough(size, start, steps, i + 1, acc + Contribution(steps[i].got), j))
  {
    var more := Contribution(steps[i].got);
    forall k | i < k <= |steps|
      ensures Gathered(steps, i, k, acc) == Gathered(steps, i + 1, k, acc + more)
    {
      assert steps[i..k][0] == steps[i];
      assert steps[i..k][1..] == steps[i + 1..k];
    }
    assert Gathered(steps, i, i, acc) == acc;
  }

  /** What the loop started at input `i` with `acc` may end in, pinned to
      the input where it stopped: out of input while still short
      (`Blocked`, holding everything read), a late clock reading
      (`Timeout`), an empty read (`ConnectionLost`), a `recv` that raises
      (`RecvError`), or the size check on
      everything read, reached either by holding enough bytes or by
      `file_end`. */
  predicate Outcome(size: int, start: real, steps: seq<Step>, i: nat, acc: Bytes, r: Reception)
    requires i <= |steps|
  {
    && (r.Blocked? ==> Reaches(size, start, steps, i, acc, |steps|) && r.sofar == Gathered(steps, i, |steps|, acc))
    && (!r.Blocked? ==> i <= r.consumed <= |steps|)
    && (r.Failed? && r.error.Timeout? ==>
      && r.consumed < |steps| && Reaches(size, start, steps, i, acc, r.consumed)
      && steps[r.consumed].clock - start > RECEIVE_TIMEOUT)
    && (r.Failed? && r.error.ConnectionLost? ==>
      && i < r.consumed && Reaches(size, start, steps, i, acc, r.consumed - 1)
      && steps[r.consumed - 1].clock - start <= RECEIVE_TIMEOUT && steps[r.consumed - 1].got.Closed?)
    && (r.Failed? && r.error.RecvError? ==>
      && i < r.consumed && Reaches(size, start, steps, i, acc, r.consumed - 1)
      && steps[r.consumed - 1].clock - start <= RECEIVE_TIMEOUT && steps[r.consumed - 1].got.RecvRaised?)
    && (r.Saved? || (r.Failed? && r.error.SizeMismatch?) ==>
      && r == Finish(Gathered(steps, i, r.consumed, acc), size, r.consumed)
      && ((RanThrough(size, start, steps, i, acc, r.consumed) && |Gathered(steps, i, r.consumed, acc)| >= size)
          || (i < r.consumed && Reaches(size, start, steps, i, acc, r.consumed - 1)
              && steps[r.consumed - 1].clock - start <= RECEIVE_TIMEOUT && steps[r.consumed - 1].got.FileEndMsg?)))
  }

  /** An outcome of the loop from input `i + 1` is one from input `i` when
      input `i` lets the loop go round. */
  lemma OutcomeStep(size: int, start: real, steps: seq<Step>, i: nat, acc: Bytes, r: Reception)
    requires i < |steps| && Continues(start, steps[i]) && |acc| < size
    requires Outcome(size, start, steps, i + 1, acc + Contribution(steps[i].got), r)
    ensures Outcome(size, start, steps, i, acc, r)
  {
    if r.Blocked? {
      LiftRun(size, start, steps, i, acc, |steps|);
    } else if r.Failed? && r.error.Timeout? {
      LiftRun(size, start, steps, i, acc, r.consumed);
    } else if r.Failed? && r.error.ConnectionLost? {
      LiftRun(size, start, steps, i, acc, r.consumed - 1);
    } else if r.Failed? && r.error.RecvError? {
      LiftRun(size, start, steps, i, acc, r.consumed - 1);
    } else {
      FinishedStep(size, start, steps, i, acc, r);
    }
  }

  /** `OutcomeStep` for a reception that reached the size check. */
  lemma FinishedStep(size: int, start: real, steps: seq<Step>, i: nat, acc: Bytes, r: Reception)
    requires i < |steps| && Continues(start, steps[i]) && |acc| < size
    requires r.Saved? || (r.Failed? && r.error.SizeMismatch?)
    requires Outcome(size, start, steps, i + 1, acc + Contribution(steps[i].got), r)
    ensures Outcome(size, start, steps, i, acc, r)
  {
    var more := acc + Contribution(steps[i].got);
    LiftRun(size, start, steps, i, acc, r.consumed);
    if !(RanThrough(size, start, steps, i + 1, more, r.consumed) && |Gathered(steps, i + 1, r.consumed, more)| >= size) {
      LiftRun(size, start, steps, i, acc, r.consumed - 1);
    }
  }

  /** The loop `while len(file_data) < file_size`, from input `i` on with
      `acc` received so far; reception started at `start`. */
  function ReceiveFrom(size: int, start: real, steps: seq<Step>, i: nat, acc: Bytes): Reception
    requires i <= |steps|
    decreases |steps| - i
  {
    if |acc| >= size then Finish(acc, size, i)
    else if i == |steps| then Blocked(acc)
    else if steps[i].clock - start > RECEIVE_TIMEOUT then Failed(Timeout, i)
    else if steps[i].got.Closed? then Failed(ConnectionLost, i + 1)
    else if steps[i].got.RecvRaised? then Failed(RecvError, i + 1)
    else if steps[i].got.FileEndMsg? then Finish(acc, size, i + 1)
    else ReceiveFrom(size, start, steps, i + 1, acc + Contribution(steps[i].got))
  }

  /** The loop ends as `Outcome` describes. */
  lemma {:induction false} ReceiveFromOutcome(size: int, start: real, steps: seq<Step>, i: nat, acc: Bytes)
    requires i <= |steps|
    ensures Outcome(size, start, steps, i, acc, ReceiveFrom(size, start, steps, i, acc))
    decreases |steps| - i
  {
    assert Gathered(steps, i, i, acc) == acc;
    if |acc| >= size || i == |steps| {
    } else if !Continues(start, steps[i]) {
      if steps[i].got.FileEndMsg? && steps[i].clock - start <= RECEIVE_TIMEOUT {
        assert steps[i..i + 1][1..] == [];
        assert Gathered(steps, i, i + 1, acc) == acc;
      }
    } else {
      var more := acc + Contribution(steps[i].got);
      ReceiveFromOutcome(size, start, steps, i + 1, more);
      OutcomeStep(size, start, steps, i, acc, ReceiveFrom(size, start, steps, i + 1, more));
    }
  }

  /** The loop started at input `i` stops at input `j`: it went round for
      every input before `j`, and at `j` it holds enough, has no more input,
      or the input does not let it go on. */
  predicate StopsAt(size: int, start: real, steps: seq<Step>, i: nat, acc: Bytes, j: nat)
    requires i <= j <= |steps|
  {
    RanThrough(size, start, steps, i, acc, j)
    && (|Gathered(steps, i, j, acc)| >= size || j == |steps| || !Continues(start, steps[j]))
  }

  /** The result of a loop that stops at input `j`. */
  function StoppedAt(size: int, start: real, steps: seq<Step>, i: nat, acc: Bytes, j: nat): Reception
    requires i <= j <= |steps|
  {
    var got := Gathered(steps, i, j, acc);
    if |got| >= size then Finish(got, size, j)
    else if j == |steps| then Blocked(got)
    else if steps[j].clock - start > RECEIVE_TIMEOUT then Failed(Timeout, j)
    else if steps[j].got.Closed? then Failed(ConnectionLost, j + 1)
    else if steps[j].got.RecvRaised? then Failed(RecvError, j + 1)
    else Finish(Gathered(steps, i, j + 1, acc), size, j + 1)
  }

  /** The loop stops at one input only. */
  lemma StopIsUnique(size: int, start: real, steps: seq<Step>, i: nat, acc: Bytes, j1: nat, j2: nat)
    requires i <= j1 <= |steps| && i <= j2 <= |steps|
    requires StopsAt(size, start, steps, i, acc, j1) && StopsAt(size, start, steps, i, acc, j2)
    ensures j1 == j2
  {
    if j1 < j2 {
      assert false;
    } else if j2 < j1 {
      assert false;
    }
  }

  /** Every outcome names the input where the loop stopped, and is the
      result of stopping there. */
  lemma OutcomeStop(size: int, start: real, steps: seq<Step>, i: nat, acc: Bytes, r: Reception) returns (j: nat)
    requires i <= |steps| && Outcome(size, start, steps, i, acc, r)
    ensures i <= j <= |steps| && StopsAt(size, start, steps, i, acc, j)
    ensures r == StoppedAt(size, start, steps, i, acc, j)
  {
    if r.Blocked? {
      j := |steps|;
    } else if r.Failed? && r.error.Timeout? {
      j := r.consumed;
    } else if r.Failed? && r.error.ConnectionLost? {
      j := r.consumed - 1;
    } else if r.Failed? && r.error.RecvError? {
      j := r.consumed - 1;
    } else if i < r.consumed && steps[r.consumed - 1].got.FileEndMsg? {
      j := r.consumed - 1;
      assert !RanThrough(size, start, steps, i, acc, r.consumed) by {
        assert !Continues(start, steps[j]);
      }
    } else {
      j := r.consumed;
    }
  }

  /** The contract of the loop leaves one reception only: the one it
      computes. */
  lemma OutcomeDeterminesReception(size: int, start: real, steps: seq<Step>, i: nat, acc: Bytes, r: Reception)
    requires i <= |steps| && Outcome(size, start, steps, i, acc, r)
    ensures r == ReceiveFrom(size, start, steps, i, acc)
  {
    var j1 := OutcomeStop(size, start, steps, i, acc, r);
    ReceiveFromOutcome(size, start, steps, i, acc);
    var j2 := OutcomeStop(size, start, steps, i, acc, ReceiveFrom(size, start, steps, i, acc));
    StopIsUnique(size, start, steps, i, acc, j1, j2);
  }

  /** `handle_file_reception` for declared size `size`, started at `start`:
      the loop above from the first input with nothing received. */
  function ReceiveFile(size: int, start: real, steps: seq<Step>): (r: Reception)
    ensures Outcome(size, start, steps, 0, [], r)
    ensures r.Blocked? ==> r.sofar == Payload(steps)
    ensures r.Saved? ==> r.consumed <= |steps| && |r.data| == size && r.data == Payload(steps[..r.consumed])
    ensures size <= 0 ==> r == Finish([], size, 0)
  {
    var r := ReceiveFrom(size, start, steps, 0, []);
    ReceiveFromOutcome(size, start, steps, 0, []);
    assert steps[0..|steps|] == steps;
    assert r.Blocked? ==> r.sofar == [] + Payload(steps);
    assert !r.Blocked? ==> steps[0..r.consumed] == steps[..r.consumed];
    r
  }

  /** The frames the receiver sends back: `READY` at once, then a
      `file_error` if the reception failed. */
  function ReceiverReplies(r: Reception): (out: seq<Frame>)
    ensures |out| > 0 && out[0] == Ready
    ensures |out| == 2 <==> r.Failed?
    ensures r.Failed? ==> out[1].FileError?
    ensures !r.Failed? ==> out == [Ready]
  {
    if r.Failed? then [Ready, FileError("file reception error")] else [Ready]
  }

  // ---------------------------------------------------------------------
  // Sender and receiver together

  /** The length of `pickle.dumps({'type': 'file_chunk', 'content': c})`
      for a `bytes` chunk at pickle protocol 4, the default from Python 3.8
      (protocol 5 writes the same bytes here). Forty-four bytes come first:
      the protocol and frame headers, the dict, its two keys and the
      `file_chunk` value, each with its memo mark. Then comes the content,
      behind a 2-byte header when it is shorter than 256 bytes and a 5-byte
      one otherwise. Three more bytes close the frame: a memo mark,
      `SETITEMS` and `STOP`. */
  function ChunkFrameLength(c: Bytes): nat {
    44 + (if |c| < 256 then 2 else 5) + |c| + 3
  }

  /** The longest chunk whose frame fits one `recv(BUFFER_SIZE)`. */
  const MAX_WHOLE_CHUNK: nat := BUFFER_SIZE - 52

  /** What one `recv(BUFFER_SIZE)` can return: at most `BUFFER_SIZE`
      bytes. A chunk message parsed from one read therefore came in a frame
      of at most that length. */
  predicate FitsOneRecv(got: Received) {
    match got
    case ChunkMsg(c) => ChunkFrameLength(c) <= BUFFER_SIZE
    case Garbage(raw) => 0 < |raw| <= BUFFER_SIZE
    case _ => true
  }

  /** A chunk arrives whole in one read exactly when it has at most
      `MAX_WHOLE_CHUNK` bytes. */
  lemma WholeChunkBound(c: Bytes)
    ensures FitsOneRecv(ChunkMsg(c)) <==> |c| <= MAX_WHOLE_CHUNK
  {
  }

  /** Inputs that a run of `recv(BUFFER_SIZE)` calls can produce. */
  predicate Realizable(steps: seq<Step>) {
    forall k :: 0 <= k < |steps| ==> FitsOneRecv(steps[k].got)
  }

  /** The receiver's inputs when every sent data frame arrives as one
      `recv`, each read at the given clock. */
  function Deliver(frames: seq<Frame>, clocks: seq<real>): (steps: seq<Step>)
    requires |clocks| == |frames|
    ensures |steps| == |frames|
    ensures forall i :: 0 <= i < |frames| ==> steps[i].clock == clocks[i]
    ensures forall i :: 0 <= i < |frames| && frames[i].Chunk? ==> steps[i].got == ChunkMsg(frames[i].content)
    ensures forall i :: 0 <= i < |frames| && frames[i].FileEnd? ==> steps[i].got == FileEndMsg
  {
    seq(|frames|, i requires 0 <= i < |frames| =>
      Step(clocks[i], match frames[i] case Chunk(c) => ChunkMsg(c) case FileEnd => FileEndMsg case _ => OtherMsg))
  }

  /** A receiver that gets one whole frame per read, in time, saves exactly
      the bytes the sender read, taking the chunks and leaving `file_end`
      on the stream (for an empty file it takes nothing). */
  lemma SendReceiveRoundTrip(data: Bytes, start: real, clocks: seq<real>)
    requires |clocks| == |DataFrames(data)|
    requires forall i :: 0 <= i < |clocks| ==> clocks[i] - start <= RECEIVE_TIMEOUT
    ensures ReceiveFile(|data|, start, Deliver(DataFrames(data), clocks)) == Saved(data, |ChunksOf(data)|)
  {
    var steps := Deliver(DataFrames(data), clocks);
    var chunks := ChunksOf(data);
    forall k | 0 <= k < |chunks|
      ensures steps[k].got == ChunkMsg(chunks[k])
    {
      assert DataFrames(data)[k] == Chunk(chunks[k]);
    }
    assert chunks[0..] == chunks;
    ReceiveChunks(data, start, steps, chunks, 0, []);
  }

  lemma {:induction false} ReceiveChunks(data: Bytes, start: real, steps: seq<Step>, chunks: seq<Bytes>, i: nat, acc: Bytes)
    requires (forall k :: 0 <= k < |chunks| ==> |chunks[k]| > 0) && i <= |chunks| && |steps| == |chunks| + 1
    requires forall k :: 0 <= k < |chunks| ==> steps[k].got == ChunkMsg(chunks[k])
    requires forall k :: 0 <= k < |steps| ==> steps[k].clock - start <= RECEIVE_TIMEOUT
    requires acc + Flatten(chunks[i..]) == data
    ensures ReceiveFrom(|data|, start, steps, i, acc) == Saved(data, |chunks|)
    decreases |chunks| - i
  {
    if i == |chunks| {
      assert Flatten(chunks[i..]) == [];
    } else {
      var next := acc + chunks[i];
      assert next + Flatten(chunks[i + 1..]) == data && |acc| < |data| by {
        assert chunks[i..] == [chunks[i]] + chunks[i + 1..];
        assert Flatten(chunks[i..]) == chunks[i] + Flatten(chunks[i + 1..]);
      }
      assert Continues(start, steps[i]) && Contribution(steps[i].got) == chunks[i] by {
        assert steps[i].got == ChunkMsg(chunks[i]);
      }
      ReceiveChunks(data, start, steps, chunks, i + 1, next);
    }
  }

  /** The sender cuts `BUFFER_SIZE` pieces and the receiver reads at most
      `BUFFER_SIZE` bytes at a time, so for any file of more than
      `MAX_WHOLE_CHUNK` bytes the first chunk frame never arrives as one
      read: the inputs the round trip above assumes cannot occur. */
  lemma FullChunkNeverArrivesWhole(data: Bytes, clocks: seq<real>)
    requires |data| > MAX_WHOLE_CHUNK && |clocks| == |DataFrames(data)|
    ensures !Realizable(Deliver(DataFrames(data), clocks))
  {
    var steps := Deliver(DataFrames(data), clocks);
    var first := if |data| >= BUFFER_SIZE then data[..BUFFER_SIZE] else data;
    assert ChunksOf(data)[0] == first;
    assert DataFrames(data)[0] == Chunk(first);
    assert !FitsOneRecv(steps[0].got);
  }

  /** A file of at most `MAX_WHOLE_CHUNK` bytes goes as one chunk, its
      frame fits one read, and it arrives intact. */
  lemma SmallFileRoundTrip(data: Bytes, start: real, clocks: seq<real>)
    requires |data| <= MAX_WHOLE_CHUNK && |clocks| == |DataFrames(data)|
    requires forall i :: 0 <= i < |clocks| ==> clocks[i] - start <= RECEIVE_TIMEOUT
    ensures Realizable(Deliver(DataFrames(data), clocks))
    ensures ReceiveFile(|data|, start, Deliver(DataFrames(data), clocks)) == Saved(data, |ChunksOf(data)|)
  {
    var frames := DataFrames(data);
    var steps := Deliver(frames, clocks);
    forall k | 0 <= k < |steps|
      ensures FitsOneRecv(steps[k].got)
    {
      if k < |frames| - 1 {
        assert ChunksOf(data) == [data];
        assert steps[k].got == ChunkMsg(data);
      }
    }
    SendReceiveRoundTrip(data, start, clocks);
  }

  /** The size check is the only integrity check: two unparsable bytes
      (such as half of a `HEARTBEAT`) complete a two-byte transfer with no
      chunk at all. */
  lemma GarbageCanCompleteTransfer(start: real)
    ensures Realizable([Step(start, Garbage([0x48, 0x45]))])
    ensures ReceiveFile(2, start, [Step(start, Garbage([0x48, 0x45]))]) == Saved([0x48, 0x45], 1)
  {
    var steps := [Step(start, Garbage([0x48, 0x45]))];
    assert Realizable(steps);
    assert ReceiveFrom(2, start, steps, 1, [0x48, 0x45]) == Saved([0x48, 0x45], 1);
    assert ReceiveFrom(2, start, steps, 0, []) == ReceiveFrom(2, start, steps, 1, [0x48, 0x45]);
  }
}
